=== FILE: README.md ===
# Taurus GUI panel registry and device tree, modelled in Dafny

This project models two pieces of bookkeeping from the Taurus Qt widgets. It leaves out every Qt call.

1. The main window of `TaurusGui`. It keeps:
   - a registry of dock panels by name, each with custom, permanent and floating flags;
   - the set of names registered for configuration;
   - a forward map from instrument to panel name or None, and a reverse map from panel name or None to instrument;
   - the item lists of the loaded synoptics;
   - the external-application collections.

   Modelled operations: `createPanel`, `removePanel`, `getPanelNames`, the getter and setter of the permanent custom panels, `get/setInstrumentAssociation`, `setAllInstrumentAssociations`, the unique-name loop of `createMainSynoptic`, and `removeExternalApp`.

2. The `TaurusDevTree` device tree. Modelled pieces:
   - the name helpers `is_regexp`, `extend_regexp`, `_splitModel`, `getNodeText` and the index key of `createItem`;
   - the slash-count rules of drag data and of `deviceSelected`;
   - the instance and device filters;
   - a parent-pointer tree with `getNodePath`;
   - the case-insensitive index;
   - `getMatchingNodes`;
   - the plan of expand and collapse requests that `findInTree` queues;
   - the domain/family/member grouping of `getTangoDict`;
   - the separator rule of the node context menu.

State is held in immutable datatypes. Operations are pure functions, or methods where the source loops.

Things outside the model are parameters:
- Regular-expression matching is a `Matcher`, standing for `re.match(pattern, text)` succeeding.
- The Tango database lookup `get_matching_devices` is a function from filters to names.
- Python's dictionary and set iteration orders are either an `order` argument or the unspecified choice of a `:|` loop. Every contract holds for all orders.
- Which patterns compile is a `Compiler`, standing for `re.compile(pattern)` not raising `re.error`.
- Exceptions the source raises or swallows become explicit result fields: `AppRemoval.error`, `Creation.raised`, `FindResult.failed`, and `None` from `FirstWord` and from `Search.MatchingNodes`.

Modules:
- `Wrappers`: `Option`.
- `PyStr`: Python's `strip`, `split`, `lower`/`upper`, `replace`, `startswith`, `str(int)`.
- `Associations`, `Panels`, `SynopticNames`, `ExternalApps`: the main window.
- `DevNames`, `DevTree`, `Search`, `TangoDict`, `ContextMenu`: the device tree.

Where the code differs from what its docstrings or names suggest, the model follows the code:
- **Association maps.** `setInstrumentAssociation` does not keep the two maps mutual inverses. Another instrument pointing at the same panel keeps its forward entry while the panel's reverse entry is overwritten or dropped. `Associations.SetBreaksCompleteness` exhibits this. Only the weaker `PartialInverse` is preserved.
- **Floating argument.** The `createPanel` docstring says a dock-area value means floating and None means docked. The code computes `not floating`, which is the reverse for None and for every non-zero area. `Panels.ResolveFloating` follows the code; `Panels.DocumentedFloating` is the docstring's reading, and `Panels.FloatingAgainstDocumentation` shows where the two differ.
- **Index keys.** The tree index holds one node per key. A later item whose value has the same first word, in any case, takes the key over.

## Model

| member | source | states |
|---|---|---|
| Associations.GetInstrumentAssociation | lib/taurus/qt/qtgui/taurusgui/taurusgui.py:1375-1383 | an instrument with a forward entry reads exactly that entry (a panel name or None); an unknown instrument reads None |
| Associations.SetInstrumentAssociation | lib/taurus/qt/qtgui/taurusgui/taurusgui.py:1385-1402 | the instrument's forward entry becomes the panel and other forward entries are unchanged; the previous panel's reverse entry is gone unless re-set; a real panel maps back to the instrument; every other reverse entry, the no-panel key included, is kept, and no key other than the new panel appears |
| Associations.SetThenGet | lib/taurus/qt/qtgui/taurusgui/taurusgui.py:1385-1402 | reading an association after setting it gives the value set, and every other instrument reads as before |
| Associations.SetKeepsPartialInverse | lib/taurus/qt/qtgui/taurusgui/taurusgui.py:1396-1402 | if every reverse entry points at an instrument whose forward entry leads back, that stays true after a set |
| Associations.SetBreaksCompleteness | lib/taurus/qt/qtgui/taurusgui/taurusgui.py:1396-1402 | two instruments set to one panel, then the first cleared, leave the second's forward entry with no reverse entry: the maps stop being inverses |
| Associations.MergedForward | lib/taurus/qt/qtgui/taurusgui/taurusgui.py:1424-1427 | with clearExisting the forward map is the given dict; otherwise it is the old map with the given entries overriding and all others kept |
| Associations.SetAllInstrumentAssociations | lib/taurus/qt/qtgui/taurusgui/taurusgui.py:1413-1430 | the forward map is the merge; the rebuilt reverse map has exactly the forward values (None included) as keys, and each leads back to an instrument with that value, for any iteration order |
| SynopticNames.RFind | lib/taurus/qt/qtgui/taurusgui/taurusgui.py:839 | index of the last occurrence of a character, or -1, with no occurrence after it |
| SynopticNames.Basename | lib/taurus/qt/qtgui/taurusgui/taurusgui.py:839 | `os.path.basename`: the slash-free tail of the path after its last '/' |
| SynopticNames.Stem | lib/taurus/qt/qtgui/taurusgui/taurusgui.py:839 | `os.path.splitext(...)[0]`: a prefix of the name that differs from it exactly when the name has a dot after some non-dot character, and is then cut at the last dot |
| SynopticNames.ShortName | lib/taurus/qt/qtgui/taurusgui/taurusgui.py:839-841 | the file stem when it has at most 10 characters, otherwise `Syn` |
| SynopticNames.SuffixedInjective | lib/taurus/qt/qtgui/taurusgui/taurusgui.py:845 | distinct numbers give distinct `prefix_i` names |
| SynopticNames.CandidatesCount | lib/taurus/qt/qtgui/taurusgui/taurusgui.py:842-846 | the names `prefix_lo` .. `prefix_(hi-1)` are hi-lo distinct strings |
| SynopticNames.TakenBound | lib/taurus/qt/qtgui/taurusgui/taurusgui.py:844-846 | if candidates 2..hi-1 are all taken there are at least hi-2 taken names, so the loop ends |
| SynopticNames.UniqueName | lib/taurus/qt/qtgui/taurusgui/taurusgui.py:838-846 | the name is never an existing panel name; it is the short name when that is free, else `prefix_i` for the least i >= 2 not taken |
| ExternalApps.FirstIndex | lib/taurus/qt/qtgui/taurusgui/taurusgui.py:522-524 | the position of the first occurrence of a present element |
| ExternalApps.RemoveFirst | lib/taurus/qt/qtgui/taurusgui/taurusgui.py:522-524 | `list.remove`: one element shorter, the elements before the first occurrence kept in place and those after it shifted down |
| ExternalApps.RemoveFirstCounts | lib/taurus/qt/qtgui/taurusgui/taurusgui.py:522-524 | removal takes exactly one copy of the element out of the multiset |
| ExternalApps.RemoveFirstKeeps | lib/taurus/qt/qtgui/taurusgui/taurusgui.py:522-524 | every other element is still present after the removal |
| ExternalApps.RemoveFirstDistinct | lib/taurus/qt/qtgui/taurusgui/taurusgui.py:522-524 | removing from a repetition-free list removes the element entirely and keeps the list repetition-free |
| ExternalApps.RemoveExternalApp | lib/taurus/qt/qtgui/taurusgui/taurusgui.py:503-526 | unknown names change nothing; a known custom name leaves the custom map with every other entry unchanged, else the first copy leaves the permanent list (`list.remove`); KeyError exactly when it has no action, ValueError exactly when it has an action but no name entry, each leaving the later steps undone; otherwise the action goes and the first name entry is removed from the list |
| ExternalApps.RemovalKeepsConsistent | lib/taurus/qt/qtgui/taurusgui/taurusgui.py:503-526 | on consistent bookkeeping a removal never raises, the name is no longer a custom or permanent application and has no action, and the bookkeeping stays consistent |
| Panels.FloatingAgainstDocumentation | lib/taurus/qt/qtgui/taurusgui/taurusgui.py:613-627 | the code (`ResolveFloating`) and the docstring's reading (`DocumentedFloating`) agree exactly on booleans and on dock area 0; for None and every other dock area the code gives the opposite of the docstring |
| Panels.CreatePanel | lib/taurus/qt/qtgui/taurusgui/taurusgui.py:597-670 | an existing name returns its panel with nothing changed; a new name adds exactly that panel with the given widget and flags and registers it for configuration if asked; an explicit instrument key is associated with the panel, an implicit key associates the panel's own name exactly when some synoptic lists it, and no key leaves the associations alone; nothing else changes |
| Panels.RemovePanel | lib/taurus/qt/qtgui/taurusgui/taurusgui.py:578-595 | an unknown name changes nothing; a known name loses exactly its panel and configuration entry while associations and synoptics stay |
| Panels.CreateThenRemove | lib/taurus/qt/qtgui/taurusgui/taurusgui.py:578-670 | removing a freshly created panel gives back the old panels and synoptics and the old configuration less the name; the associations made on creation stay: without an instrument key they are the old ones, and an explicit key still reads the removed panel's name |
| Panels.CreateIdempotent | lib/taurus/qt/qtgui/taurusgui/taurusgui.py:629-632 | a second create under the same name returns the first one's panel and state, whatever its other arguments |
| Panels.NamesWhere | lib/taurus/qt/qtgui/taurusgui/taurusgui.py:720 | the names of exactly the panels a predicate selects, each once, in any iteration order |
| Panels.GetPanelNames | lib/taurus/qt/qtgui/taurusgui/taurusgui.py:679-684 | exactly the panel names, as many as there are panels |
| Panels.GetPermanentCustomPanels | lib/taurus/qt/qtgui/taurusgui/taurusgui.py:712-720 | exactly the names of panels that are both custom and permanent, each once |
| Panels.SetPermanentCustomPanelsEffect | lib/taurus/qt/qtgui/taurusgui/taurusgui.py:702-710 | after `SetPermanentCustomPanels` the panels are the old ones plus the listed names; old panels are unaltered; each new one is an empty custom permanent docked panel registered for configuration; associations and synoptics are untouched |
| Panels.SetPermanentCustomPanelsGet | lib/taurus/qt/qtgui/taurusgui/taurusgui.py:702-720 | the permanent custom panels afterwards are the old ones plus the listed names that were missing |
| Panels.CreateMainSynoptic | lib/taurus/qt/qtgui/taurusgui/taurusgui.py:812-850 | a loaded synoptic's items join the synoptic list, and a failed load the user ignores leaves the list as it was; either way a permanent non-custom docked panel holding it is added under a name not used before, registered for configuration, and nothing else changes |
| DevNames.IsRegexpChars | lib/taurus/qt/qtgui/tree/taurusdevicetree.py:53-54 | `IsRegexp` holds exactly when the text holds one of the characters `. * [ ] ( ) + ?` |
| DevNames.ExtendRegexpNoSpace | lib/taurus/qt/qtgui/tree/taurusdevicetree.py:56-61 | the extended pattern holds no space |
| DevNames.ExtendRegexpGuarded | lib/taurus/qt/qtgui/tree/taurusdevicetree.py:56-61 | when the stripped text has no `.*`, every `*` of the result follows a `.` |
| DevNames.ExtendRegexpWrapped | lib/taurus/qt/qtgui/tree/taurusdevicetree.py:59 | a text without '/' becomes a pattern starting and ending with `.*` |
| DevNames.ExtendRegexpShape | lib/taurus/qt/qtgui/tree/taurusdevicetree.py:56-61 | the three promises of `ExtendRegexp` together |
| DevNames.ExtendRegexpIsRegexp | lib/taurus/qt/qtgui/tree/taurusdevicetree.py:53-61 | a text without '/' always becomes a pattern that `is_regexp` recognises |
| DevNames.ExtendRegexpKeepsFullNames | lib/taurus/qt/qtgui/tree/taurusdevicetree.py:56-61 | a stripped full name with slashes, no pattern character and no space is used unchanged |
| DevNames.SplitModelTokens | lib/taurus/qt/qtgui/tree/taurusdevicetree.py:175-182 | the names cut from a string are non-empty and hold no comma and no whitespace |
| DevNames.SplitModelRoundTrip | lib/taurus/qt/qtgui/tree/taurusdevicetree.py:175-182 | `SplitModel` of a comma-joined or space-joined list of clean names gives back exactly that list |
| DevNames.IndexKeyPosition | lib/taurus/qt/qtgui/tree/taurusdevicetree.py:307 | the index key is a whitespace-free word starting at the value's first non-blank and ended by a blank or the end |
| DevNames.IndexKeyShape | lib/taurus/qt/qtgui/tree/taurusdevicetree.py:359-365 | the key is missing (IndexError) exactly for blank values; it is the first word; `NodeText` without `full` is that key, and with `full` the stripped text |
| DevNames.MimeDataIgnoresHost | lib/taurus/qt/qtgui/tree/taurusdevicetree.py:448-453 | a `host:port/` prefix does not change the drag-data classification `MimeData` |
| DevNames.DeviceSelected | lib/taurus/qt/qtgui/tree/taurusdevicetree.py:425-437 | the name considered is the argument if non-empty, else the current item's device name; it is announced exactly when it has two slashes |
| DevNames.DeviceRulesAgree | lib/taurus/qt/qtgui/tree/taurusdevicetree.py:425-453 | a colon-free name is dragged as device data exactly when selecting it announces it |
| DevNames.InstancesForServerRoundTrip | lib/taurus/qt/qtgui/tree/taurusdevicetree.py:795-798 | each full name `InstancesForServer` gives starts with `server/`, and dropping that prefix gives back the instance in the same position |
| DevNames.DevicesForInstance | lib/taurus/qt/qtgui/tree/taurusdevicetree.py:800-802 | exactly the entries that hold a '/' and do not start with `dserver` |
| DevNames.DevicesForInstanceAppend | lib/taurus/qt/qtgui/tree/taurusdevicetree.py:800-802 | filtering a concatenation is concatenating the filtered parts, so the kept devices stay in list order |
| DevNames.DevicesForInstanceSingle | lib/taurus/qt/qtgui/tree/taurusdevicetree.py:800-802 | a single entry is kept exactly when it holds a '/' and does not start with `dserver` |
| DevNames.DevicesForInstanceIdempotent | lib/taurus/qt/qtgui/tree/taurusdevicetree.py:800-802 | filtering the kept devices again keeps them all |
| DevTree.ChainShape | lib/taurus/qt/qtgui/tree/taurusdevicetree.py:375-383 | a parent chain starts at a root, links each element to the next, is strictly increasing and ends at its starting node |
| DevTree.AncestorsShape | lib/taurus/qt/qtgui/tree/taurusdevicetree.py:375-383 | the path runs from a root to the node's parent, excludes the node, is as long as the node is deep, and its i-th element is what the matching number of parent steps reaches |
| DevTree.NodeDeviceName | lib/taurus/qt/qtgui/tree/taurusdevicetree.py:358-369 | the node's own device name when it has one, else the first word of its label; it raises (None) exactly when the node has no device name and a blank label |
| DevTree.GetNodePath | lib/taurus/qt/qtgui/tree/taurusdevicetree.py:375-383 | raises (None) exactly when some ancestor has no device name; otherwise the loop that prepends each parent computes exactly the node's ancestors, root first |
| DevTree.Find | lib/taurus/qt/qtgui/tree/taurusdevicetree.py:113 | a found position holds the key, and a missing key is in no entry |
| DevTree.PutGet | lib/taurus/qt/qtgui/tree/taurusdevicetree.py:113 | after a store the key finds the node in any case, keys differing once lower-cased read as before, and keys stay lower-cased and unique |
| DevTree.CreateItem | lib/taurus/qt/qtgui/tree/taurusdevicetree.py:289-313 | a new node labelled with the text (default: the value) under the parent; it raises exactly for a blank value, before indexing and listing; otherwise it is listed among the items |
| DevTree.CreateItemValid | lib/taurus/qt/qtgui/tree/taurusdevicetree.py:289-313 | creating an item keeps parents before children and indexed nodes existing |
| DevTree.CreateItemIndexed | lib/taurus/qt/qtgui/tree/taurusdevicetree.py:307 | the new item is found under its key in any case, and other keys find what they found before |
| DevTree.CreateItemPath | lib/taurus/qt/qtgui/tree/taurusdevicetree.py:299-300 | the path of a new node is its parent's path followed by the parent |
| Search.SelectedMembers | lib/taurus/qt/qtgui/tree/taurusdevicetree.py:341-345 | a node is selected exactly when some entry holding it is picked: the pattern matches its key or full name and no exclusion does |
| Search.ExclusionScanAgrees | lib/taurus/qt/qtgui/tree/taurusdevicetree.py:344 | the exclusion test, run pattern by pattern on the key then the full name, answers whether some pattern matches either whenever it finishes; it finishes when every pattern compiles, and raises only at a pattern that does not |
| Search.SelectedPrefix | lib/taurus/qt/qtgui/tree/taurusdevicetree.py:341-347 | the selection from a prefix of the index is a prefix of the whole selection |
| Search.Take | lib/taurus/qt/qtgui/tree/taurusdevicetree.py:346-347 | a front slice of at most the cap's length, all of the list when there is no cap |
| Search.GetMatchingNodes | lib/taurus/qt/qtgui/tree/taurusdevicetree.py:331-348 | computes `MatchingNodes`: the exact-key shortcut, else `re.error` when the extended pattern does not compile, else the capped selection unless an exclusion test raises first |
| Search.Scan | lib/taurus/qt/qtgui/tree/taurusdevicetree.py:341-347 | the loop with early exit raises exactly when it reaches an entry whose exclusion test raises before the cap, and otherwise returns the selection cut at the cap |
| Search.Visit | lib/taurus/qt/qtgui/tree/taurusdevicetree.py:342-347 | one step of the loop: raise on an entry whose test raises, stop once the cap is reached, or go on with the node added when picked |
| Search.ScanStop | lib/taurus/qt/qtgui/tree/taurusdevicetree.py:346-347 | stopping once the cap is reached loses nothing the cap would keep |
| Search.MatchingNodesBounds | lib/taurus/qt/qtgui/tree/taurusdevicetree.py:331-348 | `MatchingNodes` without `all`: the key's node when the lower-cased query is a key, and at most one node; with a positive limit, at most that many (the `Cap`); with `all` and no limit, every picked node; every node returned is the key's or picked |
| Search.MatchingNodesErrors | lib/taurus/qt/qtgui/tree/taurusdevicetree.py:336-344 | `re.error` only past the key shortcut, and only when the extended pattern or some exclusion pattern does not compile |
| Search.MatchingNodesCompile | lib/taurus/qt/qtgui/tree/taurusdevicetree.py:340-344 | when the extended pattern and every exclusion pattern compile, nothing raises |
| Search.Plan | lib/taurus/qt/qtgui/tree/taurusdevicetree.py:890-895 | an item is queued for expansion iff it is a parent of a match and not expanded, and for collapse iff it is expanded, no such parent, and collapsing is on; only listed items appear |
| Search.PlanDistinct | lib/taurus/qt/qtgui/tree/taurusdevicetree.py:890-895 | no item is planned twice when each is listed once |
| Search.ParentsOfMembers | lib/taurus/qt/qtgui/tree/taurusdevicetree.py:889 | an item is a parent exactly when it lies on the path of some match |
| Search.FindBlank | lib/taurus/qt/qtgui/tree/taurusdevicetree.py:869-870 | a query blank once lower-cased and stripped does nothing |
| Search.FindPatternError | lib/taurus/qt/qtgui/tree/taurusdevicetree.py:865-906 | `FindInTree` with a non-blank query whose search raises `re.error` ends in the bare `except`: failed, nothing selected or queued; when every pattern compiles this cannot happen |
| Search.FindQueuesOnce | lib/taurus/qt/qtgui/tree/taurusdevicetree.py:865-906 | no item is ever queued twice by one search (`FindInTree`) |
| Search.FindOutcome | lib/taurus/qt/qtgui/tree/taurusdevicetree.py:865-906 | in every branch of `FindInTree`: a failed search queues nothing, only a selecting search selects a node, and a device name is announced only for a selected node |
| Search.FindCancelled | lib/taurus/qt/qtgui/tree/taurusdevicetree.py:874-880 | more than 50 matches without the user's go-ahead does nothing |
| Search.FindFoundPlan | lib/taurus/qt/qtgui/tree/taurusdevicetree.py:881-905 | with matches, a selecting search selects the first and announces that node's device name exactly when it has two slashes, while a non-selecting search announces nothing; it fails, queuing nothing, exactly when selecting and the first match's label is blank, or when some match has an ancestor with no device name and a blank label (selecting or not); otherwise the plan expands exactly the unexpanded parents of matches and collapses exactly the expanded non-parents when collapsing is on |
| Search.RespondPlan | lib/taurus/qt/qtgui/tree/taurusdevicetree.py:881-905 | the same promises, for the branch taken once matches exist |
| Search.PathRaisesAt | lib/taurus/qt/qtgui/tree/taurusdevicetree.py:375-383 | collecting the matches' parents raises exactly when some match has an ancestor with no device name and a blank label |
| Search.BlankParentFails | lib/taurus/qt/qtgui/tree/taurusdevicetree.py:881-905 | a non-selecting search whose match sits under a blank-labelled item fails and queues nothing |
| Search.FindNothingFound | lib/taurus/qt/qtgui/tree/taurusdevicetree.py:898-901 | with no match nothing is selected; with collapsing on (`collapseAll`, defaulting to `collapsing_search`) exactly the expanded items are collapsed, and otherwise nothing is queued |
| TangoDict.Fields | lib/taurus/qt/qtgui/tree/taurusdevicetree.py:661-664 | `split(c)`: at least one piece, and no piece holds the separator |
| TangoDict.FieldsJoin | lib/taurus/qt/qtgui/tree/taurusdevicetree.py:661-664 | joining the pieces with the separator gives the string back |
| TangoDict.JoinFields | lib/taurus/qt/qtgui/tree/taurusdevicetree.py:661-664 | splitting a join of separator-free pieces gives the pieces back |
| TangoDict.FieldsPrefix | lib/taurus/qt/qtgui/tree/taurusdevicetree.py:663-664 | starting with `d` and the separator is having `d` as first field and a second one; the rest splits into the remaining fields |
| TangoDict.GetTangoDict | lib/taurus/qt/qtgui/tree/taurusdevicetree.py:654-665 | nothing exactly for no filters; otherwise the top-level keys are exactly the first fields of the upper-cased targets |
| TangoDict.UnderDomain | lib/taurus/qt/qtgui/tree/taurusdevicetree.py:663 | `startswith(d + '/')` means first field `d` and at least one slash |
| TangoDict.UnderFamily | lib/taurus/qt/qtgui/tree/taurusdevicetree.py:664 | `startswith(d/f/)` means first fields `d` and `f` and at least two slashes |
| TangoDict.GroupFields | lib/taurus/qt/qtgui/tree/taurusdevicetree.py:661-664 | `Group`: the domains are the first fields of the targets; a domain's families are the second fields of its targets; a family's members are exactly its targets with at least two slashes |
| TangoDict.TangoDictLists | lib/taurus/qt/qtgui/tree/taurusdevicetree.py:654-665 | every matching name with two or more slashes is listed, upper-cased, under its own domain and family |
| ContextMenu.BuildTidy | lib/taurus/qt/qtgui/tree/taurusdevicetree.py:555-568 | the items one entry loop adds (`Build`) never start with a separator and never have two in a row |
| ContextMenu.BuildActions | lib/taurus/qt/qtgui/tree/taurusdevicetree.py:555-568 | the actions are exactly the labelled entries in order, enabled exactly when they have a callable |
| ContextMenu.BuildIdempotent | lib/taurus/qt/qtgui/tree/taurusdevicetree.py:555-568 | rebuilding a menu from its own items gives the same menu |
| ContextMenu.MenuFacts | lib/taurus/qt/qtgui/tree/taurusdevicetree.py:553-587 | the items each loop adds (`Menu`, for the node's entries and again for its Expert submenu, each starting as if after a separator) are tidy, hold exactly the labelled entries as actions in order, and rebuild to themselves |

## Left out

- Qt widgets, docks, tabs, icons, toolbars, message boxes and signals are left out. Only the collected data is modelled.
- Input dialogs are not modelled. `removePanel` and `removeExternalApp` with `name=None` are modelled only with the chosen name.
- The user's answer to the "more than 50 matches" box is the `proceed` argument.
- Qt's `translate` is the identity.
- `unicode(name)` conversions are the identity on strings.
- The configuration registry is modelled as a set of registered names.
- The visibility-signal wiring of `createPanel` is left out.
- `getPanel`, `getAllInstrumentAssociations` and `createCustomPanel` are left out. The first two are plain lookups and copies. `createCustomPanel` is dialog-driven.
- `createExternalApp`, `_addExternalAppLauncher` and `_setPermanentExternalApps` are left out. They need dialogs and action objects; only the removal is modelled.
- `Panels.CreateMainSynoptic` models a file that loads and a `setModel` failure the user chooses to ignore. Choosing Abort exits the program and is left out. A failure in the import or the constructor leaves `synoptic` unbound, so the next line raises NameError; that is left out too. Loading and the shared-data connections are I/O.
- `SynopticNames.Basename` treats paths as POSIX paths.
- The device-tree search takes the Tango database lookup `get_matching_devices`, and Tango queries in general, as an input function or list. `getDeviceDict` and the device proxies are left out.
- Regular-expression matching is an uninterpreted `Matcher`, and compiling an uninterpreted `Compiler`. `excludeFromSearch` and the wrapping of a single exclusion into a list are folded into the `exclude` argument.
- `Search.GetMatchingNodes` walks the index in list order. This stands for the case-insensitive dictionary's iteration order; the dictionary itself is modelled as lower-cased keys.
- The `SingletonWorker` thread and its queue are left out. The queued requests are returned as a sequence of `Op`, and running them is not modelled.
- The timing log of `findInTree` is left out.
- `getNode`, `expandNode`, `collapseNode`, `setIcons`, `sortCustom` and the default context-menu entries are left out. They are presentation or thin wrappers.
- `ContextMenu.Build` does not model entries that fail to unpack into a pair. The source logs those and skips them.
- `ContextMenu.Build` does not model the dictionary form of a context menu. It would only change the entry order.
- The composed menu is not modelled as one list. The source adds a separator before the Expert submenu without checking what came before. The contracts are about the items each loop adds.
- `ZeroDExpChannel.py` is left out. It is an adapter to the Pool element, with no logic of its own.
- `getNodeDraggable` queries Tango for attribute types. The draggable name it produces is taken as an input to the drag-data rule.
- `ExternalApps.RemovalKeepsConsistent` assumes no permanent application is listed twice, and the model does not show that the program keeps this. `updatePermanentExternalApplications` (taurusgui.py:773-774) appends every name from the dialog's permanent list, including names already there. The list can then hold repeats, a second removal of such a name raises KeyError, and the lemma does not cover that bookkeeping.

=== FILE: associations.dfy ===
/**
 The instrument-to-panel association bookkeeping of the GUI main window: a
 forward map from instrument names to an optional panel name and a reverse
 map from optional panel names to instrument names. The two maps are NOT
 kept mutual inverses by every operation; what does hold is that every
 reverse entry points back at an instrument whose forward entry names it.
 */
module Associations {
  import opened Wrappers

  /** The two association maps (`None` plays Python's `None` key/value). */
  datatype Assoc = Assoc(
    toPanel: map<string, Option<string>>,
    toInstrument: map<Option<string>, string>)

  /** No associations at all: the state of a freshly built window. */
  const Empty := Assoc(map[], map[])

  /** Every reverse entry names an instrument whose forward entry leads back
      to the same panel. */
  ghost predicate PartialInverse(a: Assoc) {
    forall v :: v in a.toInstrument ==>
      a.toInstrument[v] in a.toPanel && a.toPanel[a.toInstrument[v]] == v
  }

  /** Every forward value has a reverse entry, and every reverse key is a
      forward value. */
  ghost predicate Complete(a: Assoc) {
    a.toInstrument.Keys == a.toPanel.Values
  }

  /** The reverse map is an inverse of the forward map in both directions. */
  ghost predicate Inverse(a: Assoc) {
    PartialInverse(a) && Complete(a)
  }

  /** `getInstrumentAssociation`: the panel associated with an instrument,
      None when the instrument is unknown or explicitly unassociated. */
  function GetInstrumentAssociation(a: Assoc, instrument: string): (r: Option<string>)
    ensures instrument in a.toPanel ==> r == a.toPanel[instrument]
    ensures instrument !in a.toPanel ==> r == None
  {
    if instrument in a.toPanel then a.toPanel[instrument] else None
  }

  /** `setInstrumentAssociation`: drops the reverse entry of the instrument's
      previous panel, then records the new forward entry and, for a real
      panel, the reverse entry. Another instrument that pointed at the same
      panel keeps its forward entry. */
  function SetInstrumentAssociation(a: Assoc, instrument: string, panel: Option<string>): (r: Assoc)
    ensures r.toPanel.Keys == a.toPanel.Keys + {instrument}
    ensures r.toPanel[instrument] == panel
    ensures forall j :: j in a.toPanel && j != instrument ==> r.toPanel[j] == a.toPanel[j]
    ensures GetInstrumentAssociation(a, instrument) !in r.toInstrument
      || (panel.Some? && panel == GetInstrumentAssociation(a, instrument))
    ensures panel.Some? ==> panel in r.toInstrument && r.toInstrument[panel] == instrument
    ensures forall v :: (v in a.toInstrument && !(panel.Some? && v == panel)
                         && v != GetInstrumentAssociation(a, instrument)
      ==> v in r.toInstrument && r.toInstrument[v] == a.toInstrument[v])
    ensures forall v :: v in r.toInstrument ==> v in a.toInstrument || (panel.Some? && v == panel)
  {
    var previous := GetInstrumentAssociation(a, instrument);
    var reverse := a.toInstrument - {previous};
    Assoc(
      a.toPanel[instrument := panel],
      if panel.Some? then reverse[panel := instrument] else reverse)
  }

  /** Reading an association back after setting it gives the value set, and
      every other instrument reads as before. */
  lemma SetThenGet(a: Assoc, instrument: string, panel: Option<string>, other: string)
    ensures GetInstrumentAssociation(SetInstrumentAssociation(a, instrument, panel), instrument) == panel
    ensures other != instrument ==>
      GetInstrumentAssociation(SetInstrumentAssociation(a, instrument, panel), other)
      == GetInstrumentAssociation(a, other)
  {
  }

  /** Setting one association keeps the reverse map a partial inverse. */
  lemma {:induction false} SetKeepsPartialInverse(a: Assoc, instrument: string, panel: Option<string>)
    requires PartialInverse(a)
    ensures PartialInverse(SetInstrumentAssociation(a, instrument, panel))
  {
    var r := SetInstrumentAssociation(a, instrument, panel);
    var previous := GetInstrumentAssociation(a, instrument);
    forall v | v in r.toInstrument
      ensures r.toInstrument[v] in r.toPanel && r.toPanel[r.toInstrument[v]] == v
    {
      if v != panel {
        var j := a.toInstrument[v];
        assert r.toInstrument[v] == j;
        assert a.toPanel[j] == v;
      }
    }
  }

  /** Re-pointing the panel of one instrument at a second instrument and
      then unassociating the first leaves the second instrument's forward
      entry naming the panel but no reverse entry for it: the two maps are
      not kept mutual inverses. */
  lemma SetBreaksCompleteness()
    ensures
      var a1 := SetInstrumentAssociation(Empty, "i1", Some("p"));
      var a2 := SetInstrumentAssociation(a1, "i2", Some("p"));
      var a3 := SetInstrumentAssociation(a2, "i1", None);
      && Inverse(a1) && Inverse(a2)
      && a3.toPanel["i2"] == Some("p") && Some("p") !in a3.toInstrument
      && !Complete(a3)
  {
    var a1 := SetInstrumentAssociation(Empty, "i1", Some("p"));
    var a2 := SetInstrumentAssociation(a1, "i2", Some("p"));
    var a3 := SetInstrumentAssociation(a2, "i1", None);
    assert a1.toPanel == map["i1" := Some("p")];
    assert a1.toPanel.Values == {Some("p")};
    assert a2.toPanel == map["i1" := Some("p"), "i2" := Some("p")];
    assert a2.toPanel.Values == {Some("p")};
    assert a3.toPanel["i2"] in a3.toPanel.Values;
  }

  /** The forward map `setAllInstrumentAssociations` installs: the given
      dict, or with `clearExisting` unset the old map updated by it. */
  function MergedForward(current: map<string, Option<string>>, d: map<string, Option<string>>, clearExisting: bool)
    : (r: map<string, Option<string>>)
    ensures clearExisting ==> r == d
    ensures !clearExisting ==> r.Keys == current.Keys + d.Keys
    ensures forall i :: i in d ==> i in r && r[i] == d[i]
    ensures !clearExisting ==> forall i :: i in current && i !in d ==> i in r && r[i] == current[i]
  {
    if clearExisting then d else current + d
  }

  /** `setAllInstrumentAssociations`: installs the merged forward map, then
      rebuilds the reverse map from scratch by walking the forward entries
      in an unspecified order, each panel keeping the last instrument seen.
      The result is an inverse of its forward map whatever the order. */
  method SetAllInstrumentAssociations(a: Assoc, d: map<string, Option<string>>, clearExisting: bool)
    returns (r: Assoc)
    ensures r.toPanel == MergedForward(a.toPanel, d, clearExisting)
    ensures r.toInstrument.Keys == r.toPanel.Values
    ensures forall v :: v in r.toInstrument ==>
      r.toInstrument[v] in r.toPanel && r.toPanel[r.toInstrument[v]] == v
  {
    var forward := MergedForward(a.toPanel, d, clearExisting);
    var reverse: map<Option<string>, string> := map[];
    var todo := forward.Keys;
    while todo != {}
      invariant todo <= forward.Keys
      invariant reverse.Keys == set k | k in forward.Keys - todo :: forward[k]
      invariant forall v :: v in reverse ==>
        reverse[v] in forward && reverse[v] !in todo && forward[reverse[v]] == v
      decreases todo
    {
      var k :| k in todo;
      reverse := reverse[forward[k] := k];
      todo := todo - {k};
    }
    assert forward.Keys - todo == forward.Keys;
    r := Assoc(forward, reverse);
    forall v | v in forward.Values ensures v in reverse {
      var k :| k in forward && forward[k] == v;
    }
  }
}

=== FILE: contextmenu.dfy ===
/**
 Building a node's context menu from its list of (text, action) entries:
 a labelled entry becomes a menu action, enabled when it has an action; an
 entry with an empty text becomes a separator, unless the menu is still
 empty or already ends in a separator.
 */
module ContextMenu {
  import opened Wrappers

  /** One `(text, action)` pair of a node's context-menu list; the
      callable is an opaque handle. */
  datatype Entry = Entry(text: string, action: Option<nat>)

  datatype Item = Action(text: string, enabled: bool) | Separator

  /** The items added for `entries` when the last item added so far was a
      separator (or there is none yet) exactly when `lastWasSeparator`. */
  function Build(entries: seq<Entry>, lastWasSeparator: bool): seq<Item> {
    if entries == [] then []
    else
      var e := entries[0];
      if e.text != "" then [Action(e.text, e.action.Some?)] + Build(entries[1..], false)
      else if !lastWasSeparator then [Separator] + Build(entries[1..], true)
      else Build(entries[1..], lastWasSeparator)
  }

  /** The menu of a node: the walk starts as if after a separator. */
  function Menu(entries: seq<Entry>): seq<Item> {
    Build(entries, true)
  }

  /** The actions of a menu, in order. */
  function Actions(items: seq<Item>): seq<Item> {
    if items == [] then []
    else (if items[0].Action? then [items[0]] else []) + Actions(items[1..])
  }

  /** The action each labelled entry stands for, in order. */
  function Labelled(entries: seq<Entry>): seq<Item> {
    if entries == [] then []
    else
      var e := entries[0];
      (if e.text != "" then [Action(e.text, e.action.Some?)] else []) + Labelled(entries[1..])
  }

  /** Whether a menu neither starts with a separator (when `atStart`) nor
      has two separators in a row. */
  predicate Tidy(items: seq<Item>, atStart: bool) {
    && (atStart && items != [] ==> items[0].Action?)
    && (forall i :: 0 <= i < |items| - 1 ==> items[i].Action? || items[i + 1].Action?)
  }

  /** The menu built after a separator never starts with another one and
      never has two in a row. */
  lemma {:induction false} BuildTidy(entries: seq<Entry>, lastWasSeparator: bool)
    ensures Tidy(Build(entries, lastWasSeparator), lastWasSeparator)
  {
    if entries != [] {
      var e := entries[0];
      var rest := entries[1..];
      if e.text != "" {
        BuildTidy(rest, false);
        var r := Build(rest, false);
        assert Build(entries, lastWasSeparator) == [Action(e.text, e.action.Some?)] + r;
      } else if !lastWasSeparator {
        BuildTidy(rest, true);
      } else {
        BuildTidy(rest, lastWasSeparator);
      }
    }
  }

  /** Every labelled entry, and nothing else, becomes an action, in order,
      enabled exactly when it has a callable. */
  lemma {:induction false} BuildActions(entries: seq<Entry>, lastWasSeparator: bool)
    ensures Actions(Build(entries, lastWasSeparator)) == Labelled(entries)
  {
    if entries != [] {
      var e := entries[0];
      var rest := entries[1..];
      if e.text != "" {
        BuildActions(rest, false);
        var r := Build(rest, false);
        var a := Action(e.text, e.action.Some?);
        assert ([a] + r)[0] == a && ([a] + r)[1..] == r;
      } else if !lastWasSeparator {
        BuildActions(rest, true);
        var r := Build(rest, true);
        assert ([Separator] + r)[0] == Separator && ([Separator] + r)[1..] == r;
      } else {
        BuildActions(rest, lastWasSeparator);
      }
    }
  }

  /** The entries a menu's items correspond to: an action keeps its text
      and a callable when enabled; a separator is an empty text. */
  function Entries(items: seq<Item>): (r: seq<Entry>)
    ensures |r| == |items|
  {
    if items == [] then []
    else
      var e := match items[0]
        case Action(text, enabled) => Entry(text, if enabled then Some(0) else None)
        case Separator => Entry("", None);
      [e] + Entries(items[1..])
  }

  /** Building the menu again from the entries of the items it produced
      gives the same menu: the separator rules are already satisfied. */
  lemma {:induction false} BuildIdempotent(entries: seq<Entry>, lastWasSeparator: bool)
    ensures Build(Entries(Build(entries, lastWasSeparator)), lastWasSeparator) == Build(entries, lastWasSeparator)
  {
    if entries != [] {
      var e := entries[0];
      var rest := entries[1..];
      if e.text != "" {
        BuildIdempotent(rest, false);
        var r := Build(rest, false);
        var a := Action(e.text, e.action.Some?);
        assert ([a] + r)[0] == a && ([a] + r)[1..] == r;
      } else if !lastWasSeparator {
        BuildIdempotent(rest, true);
        var r := Build(rest, true);
        assert ([Separator] + r)[0] == Separator && ([Separator] + r)[1..] == r;
      } else {
        BuildIdempotent(rest, lastWasSeparator);
      }
    }
  }

  /** The properties of a node's menu: no leading separator, no two
      separators in a row, the labelled entries as its actions, and a fixed
      point of rebuilding. */
  lemma MenuFacts(entries: seq<Entry>)
    ensures Tidy(Menu(entries), true)
    ensures Actions(Menu(entries)) == Labelled(entries)
    ensures Menu(Entries(Menu(entries))) == Menu(entries)
  {
    BuildTidy(entries, true);
    BuildActions(entries, true);
    BuildIdempotent(entries, true);
  }
}

=== FILE: devnames.dfy ===
/**
 The string rules of the device tree widget: when a search text counts as a
 regular expression, how a search text is widened into one, how a model
 string is cut into names, how an item's index key and display text are taken
 from its label, how a dragged name is classified by its slashes, when a
 selection is announced as a device, and how server instances and instance
 devices are named and filtered.
 */
module DevNames {
  import opened PyStr
  import opened Wrappers

  /** The characters whose presence makes `is_regexp` answer yes. */
  const RegexpChars: string := ".*[]()+?"

  /** `is_regexp(s)`: `s` holds one of the regular-expression characters. */
  predicate IsRegexp(s: string) {
    exists i :: 0 <= i < |s| && s[i] in RegexpChars
  }

  /** The characters spelled out: a text is a pattern exactly when it holds
      one of `. * [ ] ( ) + ?`. */
  lemma IsRegexpChars(s: string)
    ensures IsRegexp(s) <==>
      '.' in s || '*' in s || '[' in s || ']' in s || '(' in s || ')' in s || '+' in s || '?' in s
  {
    if IsRegexp(s) {
      var i :| 0 <= i < |s| && s[i] in RegexpChars;
      assert s[i] in s;
    }
  }

  /** Every `*` of `s` sits right after a `.`, so it can only repeat "any
      character" and never a literal one. */
  predicate StarsGuarded(s: string) {
    forall i :: 0 <= i < |s| && s[i] == '*' ==> 0 < i && s[i - 1] == '.'
  }

  /** `extend_regexp(s)`: a shell-style search text turned into a regular
      expression. Bare `*` become `.*` unless the text already uses `.*`, a
      text without `/` may match anywhere inside a name, and spaces become
      `.*`. */
  function ExtendRegexp(s: string): string {
    var s1 := Strip(s);
    var s2 := if !Contains(s1, ".*") then ReplaceChar(s1, '*', ".*") else s1;
    var s3 := if '/' !in s2 then ".*" + s2 + ".*" else s2;
    ReplaceChar(s3, ' ', ".*")
  }

  lemma GuardedConcat(a: string, b: string)
    requires StarsGuarded(a) && StarsGuarded(b)
    ensures StarsGuarded(a + b)
  {
    forall i | 0 <= i < |a + b| && (a + b)[i] == '*'
      ensures 0 < i && (a + b)[i - 1] == '.'
    {
      if i >= |a| {
        assert b[i - |a|] == '*';
      }
    }
  }

  lemma {:induction false} GuardedReplaceStar(s: string)
    ensures StarsGuarded(ReplaceChar(s, '*', ".*"))
    decreases |s|
  {
    if s != [] {
      var last := s[|s| - 1];
      GuardedReplaceStar(s[..|s| - 1]);
      GuardedConcat(ReplaceChar(s[..|s| - 1], '*', ".*"), if last == '*' then ".*" else [last]);
    }
  }

  lemma {:induction false} GuardedReplaceSpace(s: string)
    requires StarsGuarded(s)
    ensures StarsGuarded(ReplaceChar(s, ' ', ".*"))
    decreases |s|
  {
    if s != [] {
      var p := s[..|s| - 1];
      var last := s[|s| - 1];
      assert StarsGuarded(p);
      GuardedReplaceSpace(p);
      var rp := ReplaceChar(p, ' ', ".*");
      ReplaceCharFacts(p, ' ', ".*");
      if last == ' ' {
        GuardedConcat(rp, ".*");
      } else if last == '*' {
        assert s[|s| - 2] == '.';
        assert p[|p| - 1] == '.';
        var r := rp + [last];
        forall i | 0 <= i < |r| && r[i] == '*'
          ensures 0 < i && r[i - 1] == '.'
        {
          if i < |rp| {
            assert rp[i] == '*';
          }
        }
      } else {
        GuardedConcat(rp, [last]);
      }
    }
  }

  lemma ExtendRegexpNoSpace(s: string)
    ensures ' ' !in ExtendRegexp(s)
  {
    var s1 := Strip(s);
    var s2 := if !Contains(s1, ".*") then ReplaceChar(s1, '*', ".*") else s1;
    var s3 := if '/' !in s2 then ".*" + s2 + ".*" else s2;
    ReplaceCharFacts(s3, ' ', ".*");
  }

  lemma ExtendRegexpGuarded(s: string)
    requires !Contains(Strip(s), ".*")
    ensures StarsGuarded(ExtendRegexp(s))
  {
    var s1 := Strip(s);
    var s2 := ReplaceChar(s1, '*', ".*");
    GuardedReplaceStar(s1);
    if '/' !in s2 {
      GuardedConcat(".*", s2);
      GuardedConcat(".*" + s2, ".*");
      GuardedReplaceSpace(".*" + s2 + ".*");
    } else {
      GuardedReplaceSpace(s2);
    }
  }

  lemma ExtendRegexpWrapped(s: string)
    requires '/' !in s
    ensures StartsWith(ExtendRegexp(s), ".*") && EndsWith(ExtendRegexp(s), ".*")
  {
    var s1 := Strip(s);
    assert '/' !in s1;
    var s2 := if !Contains(s1, ".*") then ReplaceChar(s1, '*', ".*") else s1;
    assert '/' !in s2 by {
      ReplaceCharFacts(s1, '*', ".*");
    }
    var r2 := ReplaceChar(s2, ' ', ".*");
    assert ExtendRegexp(s) == ".*" + r2 + ".*" by {
      ReplaceAppend(".*" + s2, ".*", ' ', ".*");
      ReplaceAppend(".*", s2, ' ', ".*");
      ReplaceCharFacts(".*", ' ', ".*");
    }
    var r := ".*" + r2 + ".*";
    assert r[..2] == ".*";
    assert r[|r| - 2..] == ".*";
  }

  /** What `extend_regexp` promises: the result holds no space; when the
      stripped text does not already use `.*`, every `*` in the result is
      preceded by `.`; and a text without `/` becomes a pattern that starts
      and ends with `.*`. */
  lemma ExtendRegexpShape(s: string)
    ensures ' ' !in ExtendRegexp(s)
    ensures !Contains(Strip(s), ".*") ==> StarsGuarded(ExtendRegexp(s))
    ensures '/' !in s ==> StartsWith(ExtendRegexp(s), ".*") && EndsWith(ExtendRegexp(s), ".*")
  {
    ExtendRegexpNoSpace(s);
    if !Contains(Strip(s), ".*") {
      ExtendRegexpGuarded(s);
    }
    if '/' !in s {
      ExtendRegexpWrapped(s);
    }
  }

  /** A search text without `/` always becomes a regular expression. */
  lemma ExtendRegexpIsRegexp(s: string)
    requires '/' !in s
    ensures IsRegexp(ExtendRegexp(s))
  {
    ExtendRegexpWrapped(s);
    assert ExtendRegexp(s)[0] == '.';
  }

  /** A plain full name (slashes, but no pattern character and no space) is
      used as it stands once stripped. */
  lemma ExtendRegexpKeepsFullNames(s: string)
    requires '/' in Strip(s) && !IsRegexp(Strip(s)) && ' ' !in Strip(s)
    ensures ExtendRegexp(s) == Strip(s)
  {
    var s1 := Strip(s);
    assert '*' !in s1;
    ReplaceCharFacts(s1, '*', ".*");
    ReplaceCharFacts(s1, ' ', ".*");
  }

  /** What `_splitModel` is given: a string, or an already split list. */
  datatype ModelArg = Text(s: string) | Names(names: seq<string>)

  /** `_splitModel`: a string is cut at commas and whitespace; a list is
      returned as it is. */
  function SplitModel(m: ModelArg): seq<string> {
    match m
    case Text(s) => Split(ReplaceChar(s, ',', " "))
    case Names(ns) => ns
  }

  /** A character absent from the input is absent from every token. */
  lemma {:induction false} SplitAvoids(s: string, c: char)
    requires c !in s
    ensures forall k :: 0 <= k < |Split(s)| ==> c !in Split(s)[k]
    decreases |s|
  {
    var t := LStrip(s);
    if t != [] {
      var w := Word(t);
      var rest := t[|w|..];
      assert c !in t by {
        assert t == s[|s| - |t|..];
      }
      assert c !in w by {
        assert w == t[..|w|];
      }
      assert c !in rest;
      SplitAvoids(rest, c);
      assert Split(s) == [w] + Split(rest);
    }
  }

  /** The names `_splitModel` cuts from a string are non-empty and hold
      neither a comma nor whitespace. */
  lemma SplitModelTokens(s: string)
    ensures forall k :: 0 <= k < |SplitModel(Text(s))| ==>
      var w := SplitModel(Text(s))[k];
      |w| > 0 && NoSpace(w) && ',' !in w
  {
    var x := ReplaceChar(s, ',', " ");
    ReplaceCharFacts(s, ',', " ");
    SplitTokensClean(x);
    SplitAvoids(x, ',');
  }

  lemma {:induction false} ReplaceCommaJoin(ts: seq<string>)
    requires forall k :: 0 <= k < |ts| ==> ',' !in ts[k]
    ensures ReplaceChar(JoinWith(ts, ','), ',', " ") == JoinWith(ts, ' ')
  {
    if |ts| == 1 {
      ReplaceCharFacts(ts[0], ',', " ");
    } else if |ts| > 1 {
      var w := ts[0];
      var rest := JoinWith(ts[1..], ',');
      assert ReplaceChar([','], ',', " ") == " " by {
        assert [','][..0] == [];
      }
      assert ReplaceChar(w, ',', " ") == w by {
        ReplaceCharFacts(w, ',', " ");
      }
      assert ReplaceChar(JoinWith(ts, ','), ',', " ") == w + (" " + ReplaceChar(rest, ',', " ")) by {
        assert JoinWith(ts, ',') == w + ([','] + rest);
        ReplaceAppend(w, [','] + rest, ',', " ");
        ReplaceAppend([','], rest, ',', " ");
      }
      assert ReplaceChar(rest, ',', " ") == JoinWith(ts[1..], ' ') by {
        ReplaceCommaJoin(ts[1..]);
      }
      assert JoinWith(ts, ' ') == w + (" " + JoinWith(ts[1..], ' '));
    }
  }

  /** A comma-joined or space-joined list of clean names is split back into
      exactly those names. */
  lemma SplitModelRoundTrip(ts: seq<string>)
    requires CleanTokens(ts)
    requires forall k :: 0 <= k < |ts| ==> ',' !in ts[k]
    ensures SplitModel(Text(JoinWith(ts, ','))) == ts
    ensures SplitModel(Text(JoinWith(ts, ' '))) == ts
  {
    assert SplitModel(Text(JoinWith(ts, ','))) == ts by {
      ReplaceCommaJoin(ts);
      SplitJoin(ts);
    }
    assert SplitModel(Text(JoinWith(ts, ' '))) == ts by {
      JoinWithout(ts, ' ', ',');
      ReplaceCharFacts(JoinWith(ts, ' '), ',', " ");
      SplitJoin(ts);
    }
  }

  lemma {:induction false} JoinWithout(ts: seq<string>, sep: char, c: char)
    requires sep != c
    requires forall k :: 0 <= k < |ts| ==> c !in ts[k]
    ensures c !in JoinWith(ts, sep)
  {
    if |ts| > 1 {
      JoinWithout(ts[1..], sep, c);
    }
  }

  /** The first whitespace-separated word of a label, or None when the label
      is blank (where Python's `split()[0]` raises `IndexError`). */
  function FirstWord(s: string): Option<string> {
    var ts := Split(s);
    if ts == [] then None else Some(ts[0])
  }

  /** The index key `createItem` files an item under:
      `value.strip().split()[0]`; None stands for the `IndexError` a blank
      value raises. */
  function IndexKey(value: string): Option<string> {
    FirstWord(Strip(value))
  }

  /** `getNodeText(node, full)`: the stripped label, or with `full` unset
      its first word. `text` is None for an object without text (no current
      item), which yields the empty string; None as a result stands for the
      `IndexError` of a blank label. */
  function NodeText(text: Option<string>, full: bool): Option<string> {
    match text
    case None => Some("")
    case Some(t) => if full then Some(Strip(t)) else FirstWord(Strip(t))
  }

  /** Stripping keeps a string blank exactly when it was blank. */
  lemma StripBlank(value: string)
    ensures AllSpace(Strip(value)) <==> AllSpace(value)
  {
    var st := Strip(value);
    if AllSpace(st) {
      assert st == [];
    }
  }

  /** Whether `k` is a whitespace-free word of `v` starting at `L`, with only
      whitespace before it and whitespace or the end right after it. */
  predicate WordAt(v: string, L: nat, k: string) {
    && |k| > 0 && NoSpace(k)
    && L + |k| <= |v|
    && k == v[L..L + |k|]
    && (forall i :: 0 <= i < L ==> IsSpace(v[i]))
    && (L + |k| == |v| || IsSpace(v[L + |k|]))
  }

  /** A word at the start of a slice sits at the same place in the whole
      string, and is ended there by a blank or the end when the whole string
      carries only blanks after the slice. */
  lemma PrefixOfSlice(v: string, L: nat, st: string, k: string)
    requires L + |st| <= |v| && st == v[L..L + |st|]
    requires forall i :: 0 <= i < L ==> IsSpace(v[i])
    requires forall i :: L + |st| <= i < |v| ==> IsSpace(v[i])
    requires WordAt(st, 0, k)
    ensures WordAt(v, L, k)
  {
    SliceOfSlice(v, L, L + |st|, |k|);
    assert st[0..|k|] == st[..|k|];
    if |k| < |st| {
      assert v[L + |k|] == st[|k|];
    }
  }

  /** The first word of a non-blank string starts it and is ended by a blank
      or the end. */
  lemma FirstWordShape(st: string)
    requires FirstWord(st).Some? && (st == [] || !IsSpace(st[0]))
    ensures WordAt(st, 0, FirstWord(st).value)
  {
    var k := FirstWord(st).value;
    assert |k| > 0 && NoSpace(k) by {
      SplitTokensClean(st);
    }
    FirstTokenShape(st);
    assert Lead(st) == 0;
    assert st[..0] == [];
  }

  /** Whether `st` is the piece of `value` from `L` on with only whitespace
      around it, and starts with a non-blank when not empty. */
  predicate Piece(value: string, L: nat, st: string) {
    && L + |st| <= |value| && st == value[L..L + |st|]
    && (forall i :: 0 <= i < L ==> IsSpace(value[i]))
    && (forall i :: L + |st| <= i < |value| ==> IsSpace(value[i]))
    && (st == [] || !IsSpace(st[0]))
  }

  /** What `strip()` keeps is such a piece. */
  lemma StripPiece(value: string)
    ensures Piece(value, Lead(value), Strip(value))
  {
  }

  /** The first word of such a piece is a word of the whole string at the
      piece's start. */
  lemma FirstWordOfPiece(value: string, L: nat, st: string)
    requires Piece(value, L, st) && FirstWord(st).Some?
    ensures WordAt(value, L, FirstWord(st).value)
  {
    FirstWordShape(st);
    PrefixOfSlice(value, L, st, FirstWord(st).value);
  }

  lemma IndexKeyPosition(value: string)
    requires IndexKey(value).Some?
    ensures WordAt(value, Lead(value), IndexKey(value).value)
  {
    StripPiece(value);
    FirstWordOfPiece(value, Lead(value), Strip(value));
  }

  /** The index key is the first whitespace-delimited word of the value: it
      starts at the first non-blank character and ends before the next blank
      or at the end. There is none exactly when the value is blank. The short
      display text of an item labelled with its value is that same key, and
      the full display text is the value without surrounding blanks. */
  lemma IndexKeyShape(value: string)
    ensures IndexKey(value) == None <==> AllSpace(value)
    ensures IndexKey(value).Some? ==> WordAt(value, Lead(value), IndexKey(value).value)
    ensures NodeText(Some(value), false) == IndexKey(value)
    ensures NodeText(Some(value), true) == Some(Strip(value))
  {
    SplitEmpty(Strip(value));
    StripBlank(value);
    if IndexKey(value).Some? {
      IndexKeyPosition(value);
    }
  }

  /** The three kinds of drag data `getModelMimeData` can fill. */
  datatype MimeKind = AttrMime | DevMime | ModelMime

  /** `getModelMimeData` on the draggable name of the current item: an empty
      (false) name gives no data; otherwise slashes not balanced by colons
      decide between attribute (3), device (2) and plain model data. */
  function MimeData(draggable: string): Option<MimeKind> {
    if draggable == "" then None
    else
      var slashes := Count(draggable, '/') - Count(draggable, ':');
      if slashes == 3 then Some(AttrMime)
      else if slashes == 2 then Some(DevMime)
      else Some(ModelMime)
  }

  /** A `host:port/` prefix (one colon, one slash) does not change how a
      dragged name is classified. */
  lemma MimeDataIgnoresHost(host: string, port: string, name: string)
    requires '/' !in host && ':' !in host && '/' !in port && ':' !in port
    requires name != ""
    ensures MimeData(host + ":" + port + "/" + name) == MimeData(name)
  {
    var p := host + ":" + port + "/";
    assert multiset(p + name) == multiset(host) + multiset(":") + multiset(port) + multiset("/") + multiset(name);
    assert multiset(host)['/'] == 0 && multiset(host)[':'] == 0;
    assert multiset(port)['/'] == 0 && multiset(port)[':'] == 0;
  }

  /** `deviceSelected(device_name)`: the name announced, if any. An empty
      argument falls back to the current item's device name (None when that
      lookup raised, which the method swallows); only names with exactly two
      slashes are announced. */
  function DeviceSelected(arg: string, current: Option<string>): (r: Option<string>)
    ensures r.Some? ==> Count(r.value, '/') == 2
    ensures arg != "" && r.Some? ==> r.value == arg
    ensures arg == "" && r.Some? ==> current == r
    ensures var n := if arg != "" then Some(arg) else current;
      n.Some? && Count(n.value, '/') == 2 ==> r == n
  {
    var name := if arg != "" then Some(arg) else current;
    if name.None? || Count(name.value, '/') != 2 then None else name
  }

  /** The two slash rules agree: a colon-free name is dragged as device data
      exactly when selecting it announces it as a device. */
  lemma DeviceRulesAgree(name: string, current: Option<string>)
    requires name != "" && ':' !in name
    ensures MimeData(name) == Some(DevMime) <==> DeviceSelected(name, current) == Some(name)
  {
    assert Count(name, ':') == 0;
  }

  /** `get_instances_for_server`: each instance named `server/instance`. */
  function InstancesForServer(server: string, instances: seq<string>): (r: seq<string>)
    ensures |r| == |instances|
  {
    seq(|instances|, k requires 0 <= k < |instances| => server + "/" + instances[k])
  }

  /** Every full instance name starts with `server/`, and dropping that prefix
      gives back the instance the database listed, in the same position. */
  lemma InstancesForServerRoundTrip(server: string, instances: seq<string>)
    ensures forall k :: 0 <= k < |instances| ==>
      var full := InstancesForServer(server, instances)[k];
      StartsWith(full, server + "/") && full[|server| + 1..] == instances[k]
  {
    forall k | 0 <= k < |instances|
      ensures var full := InstancesForServer(server, instances)[k];
        StartsWith(full, server + "/") && full[|server| + 1..] == instances[k]
    {
      var full := server + "/" + instances[k];
      assert full[..|server| + 1] == server + "/";
    }
  }

  /** The test `get_devices_for_instance` keeps a class-list entry by. */
  predicate IsInstanceDevice(d: string) {
    '/' in d && !StartsWith(d, "dserver")
  }

  /** `get_devices_for_instance`: the entries of the instance's class list
      that are device names (hold a `/`) and not its admin device (start with
      `dserver`), in their original order. */
  function DevicesForInstance(devs: seq<string>): (r: seq<string>)
    ensures |r| <= |devs|
    ensures forall d :: d in r <==> d in devs && IsInstanceDevice(d)
  {
    if devs == [] then []
    else
      var rest := DevicesForInstance(devs[1..]);
      assert devs == [devs[0]] + devs[1..];
      if IsInstanceDevice(devs[0]) then [devs[0]] + rest else rest
  }

  /** Filtering works entry by entry: the devices kept from two lists in a
      row are those kept from the first followed by those kept from the
      second, so the original order and repetitions survive. */
  lemma {:induction false} DevicesForInstanceAppend(a: seq<string>, b: seq<string>)
    ensures DevicesForInstance(a + b) == DevicesForInstance(a) + DevicesForInstance(b)
    decreases |a|
  {
    if a != [] {
      assert (a + b)[0] == a[0];
      assert (a + b)[1..] == a[1..] + b;
      DevicesForInstanceAppend(a[1..], b);
    } else {
      assert a + b == b;
    }
  }

  /** A single entry is kept exactly when it names an instance device. */
  lemma DevicesForInstanceSingle(d: string)
    ensures DevicesForInstance([d]) == if IsInstanceDevice(d) then [d] else []
  {
    assert [d][1..] == [];
  }

  /** Filtering the kept devices again keeps them all. */
  lemma {:induction false} DevicesForInstanceIdempotent(devs: seq<string>)
    ensures DevicesForInstance(DevicesForInstance(devs)) == DevicesForInstance(devs)
  {
    if devs != [] {
      DevicesForInstanceIdempotent(devs[1..]);
    }
  }
}

=== FILE: devtree.dfy ===
/**
 The device tree's nodes and name index. Nodes live in a sequence and are
 named by their position; each holds its display text, its device name and
 a pointer to its parent node (None for a top-level node). The index maps
 lower-cased keys to nodes, as the case-insensitive dictionary of the tree
 does; its entries are kept in a sequence that stands for the dictionary's
 iteration order.
 */
module DevTree {
  import opened Wrappers
  import opened PyStr
  import DevNames

  datatype Node = Node(text: string, deviceName: string, isAttribute: bool, parent: Option<nat>)

  /** Every parent was created before its child, so it has a smaller number;
      this is what makes parent chains finite. */
  predicate WellFormed(nodes: seq<Node>) {
    forall i :: 0 <= i < |nodes| && nodes[i].parent.Some? ==> nodes[i].parent.value < i
  }

  /** The node `p` (if any) preceded by all its ancestors, root first. */
  function Chain(nodes: seq<Node>, p: Option<nat>): (r: seq<nat>)
    requires WellFormed(nodes)
    requires p.Some? ==> p.value < |nodes|
    ensures forall i :: 0 <= i < |r| ==> r[i] < |nodes|
    decreases if p.Some? then p.value + 1 else 0
  {
    match p
    case None => []
    case Some(q) => Chain(nodes, nodes[q].parent) + [q]
  }

  /** The proper ancestors of node `n`, from the root down to its parent. */
  function Ancestors(nodes: seq<Node>, n: nat): seq<nat>
    requires WellFormed(nodes) && n < |nodes|
  {
    Chain(nodes, nodes[n].parent)
  }

  /** The number of proper ancestors of a node. */
  function Depth(nodes: seq<Node>, n: nat): nat
    requires WellFormed(nodes) && n < |nodes|
    decreases n
  {
    match nodes[n].parent
    case None => 0
    case Some(p) => Depth(nodes, p) + 1
  }

  /** Following `k` parent pointers from `n`. */
  function Up(nodes: seq<Node>, n: nat, k: nat): Option<nat>
    requires WellFormed(nodes) && n < |nodes|
    decreases k
  {
    if k == 0 then Some(n)
    else match nodes[n].parent
      case None => None
      case Some(p) => Up(nodes, p, k - 1)
  }

  /** A chain starts at a root, each element is the parent of the next, it
      is strictly increasing (so repetition-free), and its last element is
      the node it was built from. */
  lemma {:induction false} ChainShape(nodes: seq<Node>, p: Option<nat>)
    requires WellFormed(nodes)
    requires p.Some? ==> p.value < |nodes|
    ensures var c := Chain(nodes, p);
      && (c != [] ==> nodes[c[0]].parent.None?)
      && (forall i :: 0 < i < |c| ==> nodes[c[i]].parent == Some(c[i - 1]))
      && (forall i, j :: 0 <= i < j < |c| ==> c[i] < c[j])
      && (p.None? <==> c == [])
      && (p.Some? ==> c[|c| - 1] == p.value)
    decreases if p.Some? then p.value + 1 else 0
  {
    if p.Some? {
      var q := p.value;
      var parent := nodes[q].parent;
      ChainShape(nodes, parent);
      var c0 := Chain(nodes, parent);
      assert forall i :: 0 <= i < |c0| ==> c0[i] <= c0[|c0| - 1];
    }
  }

  /** `getNodePath`'s result, when it returns, as the source promises it: the ancestors run
      from a root to the node's parent, each the parent of the next, never
      include the node itself, and there are as many as the node is deep;
      the `i`-th one is what `|path| - i` parent steps reach, and one step
      more than the depth reaches nothing. */
  lemma {:induction false} AncestorsShape(nodes: seq<Node>, n: nat)
    requires WellFormed(nodes) && n < |nodes|
    ensures var a := Ancestors(nodes, n);
      && |a| == Depth(nodes, n)
      && n !in a
      && (a != [] ==> nodes[a[0]].parent.None? && nodes[n].parent == Some(a[|a| - 1]))
      && (forall i :: 0 < i < |a| ==> nodes[a[i]].parent == Some(a[i - 1]))
      && (forall i :: 0 <= i < |a| ==> Up(nodes, n, |a| - i) == Some(a[i]))
      && Up(nodes, n, |a| + 1) == None
    decreases n
  {
    var a := Ancestors(nodes, n);
    ChainShape(nodes, nodes[n].parent);
    match nodes[n].parent
    case None =>
    case Some(p) =>
      AncestorsShape(nodes, p);
      var b := Ancestors(nodes, p);
      assert a == b + [p];
      forall i | 0 <= i < |a| ensures Up(nodes, n, |a| - i) == Some(a[i]) {
        if i < |b| {
          assert Up(nodes, n, |a| - i) == Up(nodes, p, |b| - i);
        }
      }
      assert Up(nodes, n, |a| + 1) == Up(nodes, p, |b| + 1);
  }

  /** `getNodeDeviceName(node)`: the node's own device name, or else the
      first word of its label; None stands for the `IndexError` a blank
      label raises when the node has no device name. */
  function NodeDeviceName(nodes: seq<Node>, n: nat): (r: Option<string>)
    requires n < |nodes|
    ensures r.None? <==> nodes[n].deviceName == "" && AllSpace(nodes[n].text)
    ensures nodes[n].deviceName != "" ==> r == Some(nodes[n].deviceName)
  {
    DevNames.IndexKeyShape(nodes[n].text);
    if nodes[n].deviceName != "" then Some(nodes[n].deviceName)
    else DevNames.NodeText(Some(nodes[n].text), false)
  }

  /** `getNodePath`: climbs the parent pointers, putting each parent in
      front of the path found so far and asking each for its device name;
      None stands for the `IndexError` of an ancestor that has no device
      name and a blank label. */
  method GetNodePath(nodes: seq<Node>, n: nat) returns (path: Option<seq<nat>>)
    requires WellFormed(nodes) && n < |nodes|
    ensures path.None? <==> exists a :: a in Ancestors(nodes, n) && NodeDeviceName(nodes, a).None?
    ensures path.Some? ==> path.value == Ancestors(nodes, n)
  {
    var p: Option<nat> := nodes[n].parent;
    var names: seq<nat> := [];
    while p.Some?
      invariant p.Some? ==> p.value < |nodes|
      invariant Chain(nodes, p) + names == Ancestors(nodes, n)
      invariant forall a :: a in names ==> a < |nodes| && NodeDeviceName(nodes, a).Some?
      decreases if p.Some? then p.value + 1 else 0
    {
      var q := p.value;
      if NodeDeviceName(nodes, q).None? {
        assert Chain(nodes, p) == Chain(nodes, nodes[q].parent) + [q];
        assert q in Ancestors(nodes, n);
        return None;
      }
      names := [q] + names;
      p := nodes[q].parent;
    }
    return Some(names);
  }

  /** One key of the case-insensitive index and the node filed under it. */
  datatype Entry = Entry(key: string, node: nat)

  /** The position of the entry with the given (already lower-cased) key. */
  function Find(index: seq<Entry>, key: string): (r: Option<nat>)
    ensures r.Some? ==> r.value < |index| && index[r.value].key == key
    ensures r.None? ==> forall i :: 0 <= i < |index| ==> index[i].key != key
  {
    if index == [] then None
    else if index[|index| - 1].key == key then Some(|index| - 1)
    else Find(index[..|index| - 1], key)
  }

  /** Index lookup; keys are compared lower-cased. */
  function Get(index: seq<Entry>, key: string): Option<nat> {
    match Find(index, Lower(key))
    case None => None
    case Some(i) => Some(index[i].node)
  }

  /** Index store: the lower-cased key is filed under the node, replacing
      the node it had if it was already present. */
  function Put(index: seq<Entry>, key: string, node: nat): seq<Entry> {
    var k := Lower(key);
    match Find(index, k)
    case None => index + [Entry(k, node)]
    case Some(i) => index[i := Entry(k, node)]
  }

  /** Every key is stored lower-cased and at most once. */
  predicate IndexValid(index: seq<Entry>) {
    && (forall i :: 0 <= i < |index| ==> Lower(index[i].key) == index[i].key)
    && (forall i, j :: 0 <= i < j < |index| ==> index[i].key != index[j].key)
  }

  /** After a store the key finds the stored node, whatever case it is
      written in; keys that differ once lower-cased find what they found
      before; and the index stays valid. */
  lemma PutGet(index: seq<Entry>, key: string, node: nat, other: string)
    requires IndexValid(index)
    ensures IndexValid(Put(index, key, node))
    ensures Get(Put(index, key, node), key) == Some(node)
    ensures Lower(other) == Lower(key) ==> Get(Put(index, key, node), other) == Some(node)
    ensures Lower(other) != Lower(key) ==> Get(Put(index, key, node), other) == Get(index, other)
  {
    var k := Lower(key);
    var lo := Lower(other);
    LowerIdempotent(key);
    var r := Put(index, key, node);
    match Find(index, k)
    case None =>
      FindUnique(r, k, |index|);
      if lo != k {
        assert r[..|r| - 1] == index;
      }
    case Some(i) =>
      FindUnique(r, k, i);
      if lo != k {
        match Find(index, lo)
        case None =>
        case Some(j) =>
          FindUnique(r, lo, j);
      }
  }

  /** In an index without repeated keys the entry holding a key is the one
      found. */
  lemma FindUnique(index: seq<Entry>, key: string, i: nat)
    requires forall p, q :: 0 <= p < q < |index| ==> index[p].key != index[q].key
    requires i < |index| && index[i].key == key
    ensures Find(index, key) == Some(i)
  {
  }

  /** The whole tree: nodes, index, the set of created items, the set of
      expanded items, and the `collapsing_search` flag. */
  datatype Tree = Tree(
    nodes: seq<Node>,
    index: seq<Entry>,
    items: set<nat>,
    expanded: set<nat>,
    collapsingSearch: bool)

  predicate Valid(t: Tree) {
    && WellFormed(t.nodes)
    && IndexValid(t.index)
    && (forall i :: 0 <= i < |t.index| ==> t.index[i].node < |t.nodes|)
    && (forall n :: n in t.items ==> n < |t.nodes|)
    && (forall n :: n in t.expanded ==> n < |t.nodes|)
  }

  /** The tree after `createItem`, the new node, and whether the call
      raised (`IndexError` on a blank value, after the node had been added
      under its parent but before it was indexed and listed). */
  datatype Creation = Creation(tree: Tree, node: nat, raised: bool)

  /** `createItem(parent, value, text)`: a new node labelled `text`, or
      `value` when no text is given, under `parent` (None for a top-level
      node), indexed under the first word of the stripped value and listed
      among the items. */
  function CreateItem(t: Tree, parent: Option<nat>, value: string, text: Option<string>): (r: Creation)
    requires parent.Some? ==> parent.value < |t.nodes|
    ensures r.node == |t.nodes|
    ensures r.tree.nodes == t.nodes + [Node(text.GetOr(value), "", false, parent)]
    ensures r.raised <==> AllSpace(value)
    ensures r.raised ==> r.tree.index == t.index && r.tree.items == t.items
    ensures !r.raised ==> r.tree.items == t.items + {r.node}
    ensures r.tree.expanded == t.expanded && r.tree.collapsingSearch == t.collapsingSearch
  {
    DevNames.IndexKeyShape(value);
    var key := DevNames.IndexKey(value);
    Creation(Extend(t, Node(text.GetOr(value), "", false, parent), key), |t.nodes|, key.None?)
  }

  /** The tree with one more node, indexed and listed when it has a key. */
  function Extend(t: Tree, node: Node, key: Option<string>): Tree {
    var n := |t.nodes|;
    match key
    case None => t.(nodes := t.nodes + [node])
    case Some(k) => t.(nodes := t.nodes + [node], index := Put(t.index, k, n), items := t.items + {n})
  }

  /** A node whose parent already exists can be appended. */
  lemma WellFormedAppend(nodes: seq<Node>, node: Node)
    requires WellFormed(nodes)
    requires node.parent.Some? ==> node.parent.value < |nodes|
    ensures WellFormed(nodes + [node])
  {
  }

  /** Storing a node keeps every indexed node among the first `bound`. */
  lemma PutNodesBelow(index: seq<Entry>, key: string, node: nat, bound: nat)
    requires forall i :: 0 <= i < |index| ==> index[i].node < bound
    requires node < bound
    ensures forall i :: 0 <= i < |Put(index, key, node)| ==> Put(index, key, node)[i].node < bound
  {
  }

  /** Adding a node under an existing parent keeps the tree valid. */
  lemma ExtendValid(t: Tree, node: Node, key: Option<string>)
    requires Valid(t)
    requires node.parent.Some? ==> node.parent.value < |t.nodes|
    ensures Valid(Extend(t, node, key))
  {
    WellFormedAppend(t.nodes, node);
    if key.Some? {
      PutGet(t.index, key.value, |t.nodes|, key.value);
      PutNodesBelow(t.index, key.value, |t.nodes|, |t.nodes| + 1);
    }
  }

  /** Creating an item keeps the tree valid. */
  lemma CreateItemValid(t: Tree, parent: Option<nat>, value: string, text: Option<string>)
    requires Valid(t)
    requires parent.Some? ==> parent.value < |t.nodes|
    ensures Valid(CreateItem(t, parent, value, text).tree)
  {
    ExtendValid(t, Node(text.GetOr(value), "", false, parent), DevNames.IndexKey(value));
  }

  /** A successfully created item is found under its key in any case, and
      every key that differs once lower-cased finds what it found before: a
      later item with the same key takes the key over. */
  lemma CreateItemIndexed(t: Tree, parent: Option<nat>, value: string, text: Option<string>, other: string)
    requires Valid(t)
    requires parent.Some? ==> parent.value < |t.nodes|
    ensures var r := CreateItem(t, parent, value, text);
      && (!r.raised ==> Get(r.tree.index, DevNames.IndexKey(value).value) == Some(r.node))
      && (!r.raised && Lower(other) != Lower(DevNames.IndexKey(value).value) ==>
            Get(r.tree.index, other) == Get(t.index, other))
  {
    var r := CreateItem(t, parent, value, text);
    if !r.raised {
      PutGet(t.index, DevNames.IndexKey(value).value, |t.nodes|, other);
    }
  }

  /** The path of a new node is its parent's path followed by the parent. */
  lemma CreateItemPath(t: Tree, parent: Option<nat>, value: string, text: Option<string>)
    requires Valid(t)
    requires parent.Some? ==> parent.value < |t.nodes|
    ensures var r := CreateItem(t, parent, value, text);
      && WellFormed(r.tree.nodes)
      && Ancestors(r.tree.nodes, r.node)
         == (if parent.None? then [] else Ancestors(t.nodes, parent.value) + [parent.value])
  {
    var r := CreateItem(t, parent, value, text);
    WellFormedAppend(t.nodes, Node(text.GetOr(value), "", false, parent));
    if parent.Some? {
      assert r.tree.nodes[..|t.nodes|] == t.nodes;
      ChainPrefix(t.nodes, r.tree.nodes, t.nodes[parent.value].parent);
    }
  }

  /** Appending nodes does not change the chain of an existing node. */
  lemma {:induction false} ChainPrefix(nodes: seq<Node>, more: seq<Node>, p: Option<nat>)
    requires WellFormed(nodes) && WellFormed(more)
    requires |nodes| <= |more| && more[..|nodes|] == nodes
    requires p.Some? ==> p.value < |nodes|
    ensures Chain(more, p) == Chain(nodes, p)
    decreases if p.Some? then p.value + 1 else 0
  {
    if p.Some? {
      assert more[p.value] == nodes[p.value];
      ChainPrefix(nodes, more, nodes[p.value].parent);
    }
  }
}

=== FILE: external_apps.dfy ===
/**
 The external-application bookkeeping of the GUI main window and the
 removal of one application. Applications are either custom (created at run
 time, keyed by the text of their launcher action) or permanent (restored
 from the configuration); each has a launcher action keyed by name and an
 entry in the list of application names.
 */
module ExternalApps {
  import opened Wrappers

  /** Launcher actions and application objects are opaque handles. */
  type Handle = nat

  datatype AppState = AppState(
    custom: map<string, Handle>,
    permanent: seq<string>,
    actions: map<string, Handle>,
    names: seq<string>)

  /** The Python exceptions a removal can stop on: `dict.pop` of a missing
      action raises KeyError, `list.remove` of a missing name ValueError. */
  datatype AppError = KeyError | ValueError

  /** The state a removal leaves behind (partly updated when it raised) and
      the exception it raised, if any. */
  datatype AppRemoval = AppRemoval(state: AppState, error: Option<AppError>)

  /** The applications offered for removal: custom and permanent ones. */
  predicate IsApp(s: AppState, name: string) {
    name in s.custom || name in s.permanent
  }

  /** Position of the first occurrence of `x` in `xs`. */
  function FirstIndex(xs: seq<string>, x: string): (i: nat)
    requires x in xs
    ensures i < |xs| && xs[i] == x
    ensures forall k :: 0 <= k < i ==> xs[k] != x
  {
    if xs[0] == x then 0 else 1 + FirstIndex(xs[1..], x)
  }

  /** Python's `list.remove` when the element is present: drops its first
      occurrence and keeps the other elements in order. */
  function RemoveFirst(xs: seq<string>, x: string): (r: seq<string>)
    requires x in xs
    ensures |r| == |xs| - 1
    ensures forall k :: 0 <= k < FirstIndex(xs, x) ==> r[k] == xs[k]
    ensures forall k :: FirstIndex(xs, x) <= k < |r| ==> r[k] == xs[k + 1]
  {
    var i := FirstIndex(xs, x);
    xs[..i] + xs[i + 1..]
  }

  /** Removing the first occurrence takes exactly one copy out of the
      multiset of elements. */
  lemma RemoveFirstCounts(xs: seq<string>, x: string)
    requires x in xs
    ensures multiset(RemoveFirst(xs, x)) == multiset(xs) - multiset{x}
  {
    var i := FirstIndex(xs, x);
    assert xs == xs[..i] + [x] + xs[i + 1..];
  }

  /** Every other element survives the removal. */
  lemma RemoveFirstKeeps(xs: seq<string>, x: string, a: string)
    requires x in xs && a != x
    ensures a in RemoveFirst(xs, x) <==> a in xs
  {
    RemoveFirstCounts(xs, x);
    assert a in multiset(RemoveFirst(xs, x)) <==> a in multiset(xs);
  }

  /** Whether a list holds no element twice. */
  predicate Distinct(xs: seq<string>) {
    forall i, j :: 0 <= i < j < |xs| ==> xs[i] != xs[j]
  }

  /** Removing from a list without repetitions removes the element entirely
      and keeps the list without repetitions. */
  lemma RemoveFirstDistinct(xs: seq<string>, x: string)
    requires x in xs && Distinct(xs)
    ensures Distinct(RemoveFirst(xs, x)) && x !in RemoveFirst(xs, x)
  {
    var i := FirstIndex(xs, x);
    var r := RemoveFirst(xs, x);
    forall p, q | 0 <= p < q < |r| ensures r[p] != r[q] {
      var p' := if p < i then p else p + 1;
      var q' := if q < i then q else q + 1;
      assert r[p] == xs[p'] && r[q] == xs[q'];
    }
    forall k | 0 <= k < |r| ensures r[k] != x {
      var k' := if k < i then k else k + 1;
      assert r[k] == xs[k'];
    }
  }

  /** `removeExternalApp(name)` for a given name: an unknown name changes
      nothing; otherwise the name leaves the custom map if it is there and
      the permanent list otherwise, then its action is popped and its name
      removed from the name list, stopping at the first of these that
      raises. */
  function RemoveExternalApp(s: AppState, name: string): (r: AppRemoval)
    ensures !IsApp(s, name) ==> r == AppRemoval(s, None)
    ensures IsApp(s, name) && name in s.custom ==>
      && r.state.custom.Keys == s.custom.Keys - {name}
      && (forall a :: a in r.state.custom ==> r.state.custom[a] == s.custom[a])
      && r.state.permanent == s.permanent
    ensures IsApp(s, name) && name !in s.custom ==>
      r.state.custom == s.custom && name in s.permanent
      && r.state.permanent == RemoveFirst(s.permanent, name)
      && multiset(r.state.permanent) == multiset(s.permanent) - multiset{name}
    ensures IsApp(s, name) ==>
      (r.error == Some(KeyError) <==> name !in s.actions)
      && (r.error == Some(ValueError) <==> name in s.actions && name !in s.names)
    ensures r.error == Some(KeyError) ==> r.state.actions == s.actions && r.state.names == s.names
    ensures IsApp(s, name) && name in s.actions ==>
      r.state.actions.Keys == s.actions.Keys - {name}
      && forall a :: a in r.state.actions ==> r.state.actions[a] == s.actions[a]
    ensures IsApp(s, name) && r.error == None ==>
      name in s.names && r.state.names == RemoveFirst(s.names, name)
      && multiset(r.state.names) == multiset(s.names) - multiset{name}
    ensures r.error == Some(ValueError) ==> r.state.names == s.names
  {
    if !IsApp(s, name) then AppRemoval(s, None)
    else
      var s1 :=
        if name in s.custom then s.(custom := s.custom - {name})
        else s.(permanent := RemoveFirst(s.permanent, name));
      assert name !in s.custom ==> name in s.permanent;
      assert name !in s.custom ==>
        multiset(s1.permanent) == multiset(s.permanent) - multiset{name} by {
        if name !in s.custom {
          RemoveFirstCounts(s.permanent, name);
        }
      }
      if name !in s1.actions then AppRemoval(s1, Some(KeyError))
      else
        var s2 := s1.(actions := s1.actions - {name});
        if name !in s2.names then AppRemoval(s2, Some(ValueError))
        else
          RemoveFirstCounts(s2.names, name);
          AppRemoval(s2.(names := RemoveFirst(s2.names, name)), None)
  }

  /** The bookkeeping is consistent when every application has a launcher
      action and a name entry, no application is both custom and permanent,
      and no permanent application is listed twice. */
  ghost predicate Consistent(s: AppState) {
    && (forall a :: IsApp(s, a) ==> a in s.actions && a in s.names)
    && (forall a :: a in s.permanent ==> a !in s.custom)
    && Distinct(s.permanent)
  }

  /** On consistent bookkeeping a removal never raises, takes the name out
      of every collection, and leaves the bookkeeping consistent. */
  lemma {:induction false} RemovalKeepsConsistent(s: AppState, name: string)
    requires Consistent(s)
    ensures RemoveExternalApp(s, name).error == None
    ensures !IsApp(RemoveExternalApp(s, name).state, name)
    ensures IsApp(s, name) ==> name !in RemoveExternalApp(s, name).state.actions
    ensures Consistent(RemoveExternalApp(s, name).state)
  {
    var r := RemoveExternalApp(s, name).state;
    if IsApp(s, name) {
      if name !in s.custom {
        RemoveFirstDistinct(s.permanent, name);
        forall a | a in r.permanent ensures a in s.permanent {
          RemoveFirstKeeps(s.permanent, name, a);
        }
      }
      forall a | IsApp(r, a) ensures a in r.actions && a in r.names {
        if name !in s.custom {
          RemoveFirstKeeps(s.permanent, name, a);
        }
        RemoveFirstKeeps(s.names, name, a);
      }
    }
  }
}

=== FILE: panels.dfy ===
/**
 The panel registry of the GUI main window: panels by name with their
 custom/permanent/floating flags, the names registered for configuration,
 the instrument associations, and the item lists of the loaded synoptics.
 */
module Panels {
  import opened Wrappers
  import opened Associations
  import SynopticNames

  /** A dock panel; the contained widget is an opaque handle (None for the
      empty panels created when restoring custom panels). */
  datatype Panel = Panel(widget: Option<nat>, custom: bool, permanent: bool, floating: bool)

  datatype GuiState = GuiState(
    panels: map<string, Panel>,
    config: set<string>,
    assoc: Assoc,
    synoptics: seq<seq<string>>)

  /** The `floating` argument of `createPanel`: a boolean, or for backwards
      compatibility a dock-area value or None in its place. */
  datatype FloatingArg = Flag(b: bool) | Area(area: int) | NoArea

  /** The instrument key that asks for an association with a synoptic item
      named like the panel. */
  const ImplicitAssociation := "__[IMPLICIT]__"

  /** The flag a panel ends up with: a boolean is taken as is, anything else
      is negated as Python truth (`not floating`), so area 0 and None float
      and every other area docks. */
  function ResolveFloating(f: FloatingArg): (r: bool)
    ensures f.Flag? ==> r == f.b
    ensures f.Area? ==> (r <==> f.area == 0)
    ensures f.NoArea? ==> r
  {
    match f
    case Flag(b) => b
    case Area(a) => !(a != 0)
    case NoArea => true
  }

  /** The reading of a non-boolean `floating` argument that the method's
      documentation gives: a dock-area value means floating, None means
      docked. */
  function DocumentedFloating(f: FloatingArg): bool {
    match f
    case Flag(b) => b
    case Area(_) => true
    case NoArea => false
  }

  /** The code and its documentation agree on booleans and on area 0 only:
      None and every non-zero dock area are read the other way round. */
  lemma FloatingAgainstDocumentation(f: FloatingArg)
    ensures ResolveFloating(f) == DocumentedFloating(f) <==> f.Flag? || (f.Area? && f.area == 0)
    ensures !f.Flag? && !(f.Area? && f.area == 0) ==> ResolveFloating(f) == !DocumentedFloating(f)
  {
  }

  /** Whether some loaded synoptic has an item with the given name. */
  predicate InSomeSynoptic(g: GuiState, name: string) {
    exists k :: 0 <= k < |g.synoptics| && name in g.synoptics[k]
  }

  /** The association step of `createPanel` for a given instrument key. */
  function AssociateOnCreate(g: GuiState, name: string, instrumentKey: Option<string>): Assoc {
    match instrumentKey
    case None => g.assoc
    case Some(key) =>
      if key == ImplicitAssociation then
        if InSomeSynoptic(g, name) then SetInstrumentAssociation(g.assoc, name, Some(name))
        else g.assoc
      else SetInstrumentAssociation(g.assoc, key, Some(name))
  }

  /** The state after `createPanel` and the panel it returns. */
  datatype Created = Created(gui: GuiState, panel: Panel)

  /** `createPanel`: a registered name returns its existing panel and
      changes nothing; a new name gets a panel with the given flags, the
      requested instrument association and, if asked, a configuration
      entry. */
  function CreatePanel(g: GuiState, widget: Option<nat>, name: string, floating: FloatingArg,
                       registerConfig: bool, custom: bool, permanent: bool,
                       instrumentKey: Option<string>): (r: Created)
    ensures name in g.panels ==> r.gui == g && r.panel == g.panels[name]
    ensures name !in g.panels ==>
      && r.gui.panels.Keys == g.panels.Keys + {name}
      && (forall n :: n in g.panels ==> r.gui.panels[n] == g.panels[n])
      && r.gui.panels[name] == r.panel
      && r.panel.widget == widget
      && r.panel.custom == custom && r.panel.permanent == permanent
      && r.panel.floating == ResolveFloating(floating)
      && (registerConfig ==> r.gui.config == g.config + {name})
      && (!registerConfig ==> r.gui.config == g.config)
      && r.gui.synoptics == g.synoptics
    ensures name !in g.panels && instrumentKey.Some? && instrumentKey != Some(ImplicitAssociation) ==>
      && r.gui.assoc == SetInstrumentAssociation(g.assoc, instrumentKey.value, Some(name))
      && GetInstrumentAssociation(r.gui.assoc, instrumentKey.value) == Some(name)
    ensures name !in g.panels && instrumentKey == Some(ImplicitAssociation) && InSomeSynoptic(g, name) ==>
      && r.gui.assoc == SetInstrumentAssociation(g.assoc, name, Some(name))
      && GetInstrumentAssociation(r.gui.assoc, name) == Some(name)
    ensures instrumentKey.None? || (instrumentKey == Some(ImplicitAssociation) && !InSomeSynoptic(g, name))
      ==> r.gui.assoc == g.assoc
  {
    if name in g.panels then Created(g, g.panels[name])
    else
      var panel := Panel(widget, custom, permanent, ResolveFloating(floating));
      var assoc := AssociateOnCreate(g, name, instrumentKey);
      var config := if registerConfig then g.config + {name} else g.config;
      Created(GuiState(g.panels[name := panel], config, assoc, g.synoptics), panel)
  }

  /** `removePanel` for a given name: an unknown name changes nothing;
      otherwise the panel and its configuration entry go away. Instrument
      associations naming the panel are left in place. */
  function RemovePanel(g: GuiState, name: string): (r: GuiState)
    ensures name !in g.panels ==> r == g
    ensures name in g.panels ==>
      && r.panels.Keys == g.panels.Keys - {name}
      && (forall n :: n in r.panels ==> r.panels[n] == g.panels[n])
      && r.config == g.config - {name}
      && r.assoc == g.assoc && r.synoptics == g.synoptics
  {
    if name !in g.panels then g
    else g.(panels := g.panels - {name}, config := g.config - {name})
  }

  /** Removing a panel just created under a new name gives back the panels
      as they were, and the configuration entries unless the name was
      registered before. The association made on creation survives the
      removal: with an instrument key the instrument still reads the removed
      panel's name; without one the associations are as before. */
  lemma CreateThenRemove(g: GuiState, widget: Option<nat>, name: string, floating: FloatingArg,
                         registerConfig: bool, custom: bool, permanent: bool,
                         instrumentKey: Option<string>)
    requires name !in g.panels
    ensures
      var c := CreatePanel(g, widget, name, floating, registerConfig, custom, permanent, instrumentKey);
      var r := RemovePanel(c.gui, name);
      && r.panels == g.panels && r.config == g.config - {name}
      && r.assoc == c.gui.assoc && r.synoptics == g.synoptics
      && (instrumentKey.None? ==> r.assoc == g.assoc)
      && (instrumentKey.Some? && instrumentKey != Some(ImplicitAssociation) ==>
            GetInstrumentAssociation(r.assoc, instrumentKey.value) == Some(name))
  {
    var c := CreatePanel(g, widget, name, floating, registerConfig, custom, permanent, instrumentKey);
    var r := RemovePanel(c.gui, name);
    assert r.panels.Keys == g.panels.Keys;
  }

  /** Creating a panel twice under the same name is the same as creating it
      once: the second call reuses the panel. */
  lemma CreateIdempotent(g: GuiState, widget: Option<nat>, name: string, floating: FloatingArg,
                         registerConfig: bool, custom: bool, permanent: bool,
                         instrumentKey: Option<string>,
                         widget2: Option<nat>, floating2: FloatingArg, registerConfig2: bool,
                         custom2: bool, permanent2: bool, instrumentKey2: Option<string>)
    ensures
      var c1 := CreatePanel(g, widget, name, floating, registerConfig, custom, permanent, instrumentKey);
      var c2 := CreatePanel(c1.gui, widget2, name, floating2, registerConfig2, custom2, permanent2, instrumentKey2);
      c2 == c1
  {
  }

  /** The names of the panels a predicate selects, in an unspecified order
      (Python's dict iteration order), each once. */
  method NamesWhere(panels: map<string, Panel>, keep: Panel -> bool) returns (names: seq<string>)
    ensures forall n :: n in names <==> n in panels && keep(panels[n])
    ensures forall i, j :: 0 <= i < j < |names| ==> names[i] != names[j]
  {
    names := [];
    var todo := panels.Keys;
    while todo != {}
      invariant todo <= panels.Keys
      invariant forall n :: n in names <==> n in panels && n !in todo && keep(panels[n])
      invariant forall i, j :: 0 <= i < j < |names| ==> names[i] != names[j]
      decreases todo
    {
      var n :| n in todo;
      if keep(panels[n]) {
        names := names + [n];
      }
      todo := todo - {n};
    }
  }

  /** `getPanelNames`: every panel name, once each. */
  method GetPanelNames(g: GuiState) returns (names: seq<string>)
    ensures forall n :: n in names <==> n in g.panels
    ensures |names| == |g.panels|
  {
    names := NamesWhere(g.panels, (_: Panel) => true);
    DistinctCard(names, g.panels.Keys);
  }

  lemma {:induction false} DistinctCard(xs: seq<string>, s: set<string>)
    requires forall n :: n in xs <==> n in s
    requires forall i, j :: 0 <= i < j < |xs| ==> xs[i] != xs[j]
    ensures |xs| == |s|
    decreases |xs|
  {
    if xs != [] {
      var last := xs[|xs| - 1];
      var init := xs[..|xs| - 1];
      forall n ensures n in init <==> n in s - {last} {
        if n in init {
          var k :| 0 <= k < |init| && init[k] == n;
          assert xs[k] == n;
        }
        if n in s - {last} {
          assert n in xs;
          var k :| 0 <= k < |xs| && xs[k] == n;
          assert k != |xs| - 1;
          assert init[k] == n;
        }
      }
      DistinctCard(init, s - {last});
    } else {
      assert forall n :: n !in s;
      assert s == {};
    }
  }

  /** The names of the custom panels that are also permanent. */
  ghost function PermanentCustom(g: GuiState): set<string> {
    set n | n in g.panels && g.panels[n].custom && g.panels[n].permanent
  }

  /** `_getPermanentCustomPanels`: the custom and permanent panel names, once
      each. */
  method GetPermanentCustomPanels(g: GuiState) returns (names: seq<string>)
    ensures forall n :: n in names <==> n in PermanentCustom(g)
    ensures forall i, j :: 0 <= i < j < |names| ==> names[i] != names[j]
  {
    names := NamesWhere(g.panels, (p: Panel) => p.custom && p.permanent);
  }

  /** One step of `_setPermanentCustomPanels`: a missing name gets an empty
      custom, permanent, docked panel registered for configuration. */
  function RestorePanel(g: GuiState, name: string): GuiState {
    if name in g.panels then g
    else CreatePanel(g, None, name, Flag(false), true, true, true, None).gui
  }

  /** `_setPermanentCustomPanels`: restores every listed name in turn. */
  function SetPermanentCustomPanels(g: GuiState, names: seq<string>): GuiState
    decreases |names|
  {
    if names == [] then g else SetPermanentCustomPanels(RestorePanel(g, names[0]), names[1..])
  }

  /** The restored panel of a missing name. */
  const RestoredPanel := Panel(None, true, true, false)

  /** Restoring permanent custom panels adds exactly the listed names that
      were missing, each as an empty custom permanent panel registered for
      configuration, never alters an existing panel, and leaves the
      associations and synoptics alone. */
  lemma {:induction false} SetPermanentCustomPanelsEffect(g: GuiState, names: seq<string>)
    ensures
      var r := SetPermanentCustomPanels(g, names);
      && (forall n :: n in r.panels <==> n in g.panels || n in names)
      && (forall n :: n in g.panels ==> n in r.panels && r.panels[n] == g.panels[n])
      && (forall n :: n in r.panels && n !in g.panels ==> r.panels[n] == RestoredPanel)
      && (forall n :: n in r.config <==> n in g.config || (n in names && n !in g.panels))
      && r.assoc == g.assoc && r.synoptics == g.synoptics
    decreases |names|
  {
    if names != [] {
      var g1 := RestorePanel(g, names[0]);
      SetPermanentCustomPanelsEffect(g1, names[1..]);
      assert forall n :: n in names <==> n == names[0] || n in names[1..];
    }
  }

  /** Consequently the permanent custom panels afterwards are the old ones
      plus the listed names that were missing. */
  lemma SetPermanentCustomPanelsGet(g: GuiState, names: seq<string>)
    ensures forall n :: (n in PermanentCustom(SetPermanentCustomPanels(g, names))
      <==> n in PermanentCustom(g) || (n in names && n !in g.panels))
  {
    SetPermanentCustomPanelsEffect(g, names);
  }

  /** `createMainSynoptic`: `loaded` holds the synoptic's item list when its
      file loaded, and is None when loading failed and the user chose to go
      on, in which case the synoptic is not added to the list but its panel
      is still created. A permanent, non-custom, docked panel holds the
      synoptic under a fresh name derived from the file path. */
  method CreateMainSynoptic(g: GuiState, path: string, loaded: Option<seq<string>>, widget: nat)
    returns (r: GuiState, name: string)
    ensures name !in g.panels
    ensures r.panels.Keys == g.panels.Keys + {name}
    ensures forall n :: n in g.panels ==> r.panels[n] == g.panels[n]
    ensures r.panels[name] == Panel(Some(widget), false, true, false)
    ensures loaded.Some? ==> r.synoptics == g.synoptics + [loaded.value]
    ensures loaded.None? ==> r.synoptics == g.synoptics
    ensures r.config == g.config + {name} && r.assoc == g.assoc
  {
    var g1 := if loaded.Some? then g.(synoptics := g.synoptics + [loaded.value]) else g;
    name := SynopticNames.UniqueName(g.panels.Keys, path);
    r := CreatePanel(g1, Some(widget), name, Flag(false), true, false, true, None).gui;
  }
}

=== FILE: pystr.dfy ===
/**
 The few pieces of Python 2 `str` behaviour the device tree and the GUI shell
 rely on: whitespace, `strip`, `split()`, ASCII case mapping, single-character
 `replace`, prefix and substring tests, and `%i` decimal formatting.
 */
module PyStr {

  /** `c.isspace()` for a byte string: space, and tab, newline, vertical
      tab, form feed and carriage return (codes 9 to 13). */
  predicate IsSpace(c: char) {
    c == ' ' || '\t' <= c <= '\r'
  }

  predicate NoSpace(s: string) {
    forall i :: 0 <= i < |s| ==> !IsSpace(s[i])
  }

  predicate AllSpace(s: string) {
    forall i :: 0 <= i < |s| ==> IsSpace(s[i])
  }

  /** Number of leading whitespace characters of `s`. */
  function Lead(s: string): (n: nat)
    ensures n <= |s|
    ensures forall i :: 0 <= i < n ==> IsSpace(s[i])
    ensures n == |s| || !IsSpace(s[n])
  {
    if |s| > 0 && IsSpace(s[0]) then 1 + Lead(s[1..]) else 0
  }

  /** Number of trailing whitespace characters of `s`. */
  function Trail(s: string): (n: nat)
    ensures n <= |s|
    ensures forall i :: |s| - n <= i < |s| ==> IsSpace(s[i])
    ensures n == |s| || !IsSpace(s[|s| - n - 1])
  {
    if |s| > 0 && IsSpace(s[|s| - 1]) then 1 + Trail(s[..|s| - 1]) else 0
  }

  /** `s.lstrip()`: `s` without its leading whitespace. */
  function LStrip(s: string): string {
    s[Lead(s)..]
  }

  /** `s.rstrip()`: `s` without its trailing whitespace. */
  function RStrip(s: string): string {
    s[..|s| - Trail(s)]
  }

  lemma SliceOfSlice(s: string, a: nat, b: nat, c: nat)
    requires a <= b <= |s| && c <= b - a
    ensures s[a..b][..c] == s[a..a + c]
  {
  }

  /** `s.strip()`: the piece of `s` left after dropping whitespace at both ends. */
  function Strip(s: string): (r: string)
    ensures Lead(s) + |r| <= |s| && r == s[Lead(s)..Lead(s) + |r|]
    ensures forall i :: Lead(s) + |r| <= i < |s| ==> IsSpace(s[i])
    ensures r == [] || (!IsSpace(r[0]) && !IsSpace(r[|r| - 1]))
  {
    var t := LStrip(s);
    var r := RStrip(t);
    r
  }

  /** The longest prefix of `s` that holds no whitespace. */
  function Word(s: string): (r: string)
    ensures |r| <= |s| && r == s[..|r|] && NoSpace(r)
    ensures |r| == |s| || IsSpace(s[|r|])
  {
    if |s| > 0 && !IsSpace(s[0]) then [s[0]] + Word(s[1..]) else []
  }

  /** `s.split()` without a separator: the maximal runs of non-whitespace
      characters, in order. */
  function Split(s: string): seq<string>
    decreases |s|
  {
    var t := LStrip(s);
    if t == [] then []
    else
      var w := Word(t);
      assert |w| > 0;
      [w] + Split(t[|w|..])
  }

  /** Tokens fit for joining: non-empty and free of whitespace. */
  predicate CleanTokens(ts: seq<string>) {
    forall i :: 0 <= i < |ts| ==> |ts[i]| > 0 && NoSpace(ts[i])
  }

  /** Every token `split()` yields is non-empty and holds no whitespace. */
  lemma {:induction false} SplitTokensClean(s: string)
    ensures CleanTokens(Split(s))
    decreases |s|
  {
    var t := LStrip(s);
    if t != [] {
      var w := Word(t);
      var rest := Split(t[|w|..]);
      assert Split(s) == [w] + rest;
      SplitTokensClean(t[|w|..]);
      forall i | 0 <= i < |[w] + rest|
        ensures |([w] + rest)[i]| > 0 && NoSpace(([w] + rest)[i])
      {
        if i > 0 {
          assert ([w] + rest)[i] == rest[i - 1];
        }
      }
    }
  }

  /** `split()` yields no token exactly for an all-whitespace string. */
  lemma SplitEmpty(s: string)
    ensures Split(s) == [] <==> AllSpace(s)
  {
    var t := LStrip(s);
    if t == [] {
      assert s[..|s| - |t|] == s;
    } else {
      assert s[|s| - |t|] == t[0];
      assert !AllSpace(s);
    }
  }

  function Concat(ss: seq<string>): string {
    if ss == [] then [] else ss[0] + Concat(ss[1..])
  }

  /** The characters of `s` that are not whitespace, in order. */
  function Unspaced(s: string): string {
    if s == [] then [] else (if IsSpace(s[0]) then [] else [s[0]]) + Unspaced(s[1..])
  }

  lemma {:induction false} UnspacedAppend(a: string, b: string)
    ensures Unspaced(a + b) == Unspaced(a) + Unspaced(b)
  {
    if a == [] {
      assert a + b == b;
    } else {
      assert (a + b)[0] == a[0];
      assert (a + b)[1..] == a[1..] + b;
      UnspacedAppend(a[1..], b);
    }
  }

  lemma {:induction false} UnspacedAllSpace(a: string)
    requires AllSpace(a)
    ensures Unspaced(a) == []
  {
    if a != [] {
      UnspacedAllSpace(a[1..]);
    }
  }

  lemma {:induction false} UnspacedNoSpace(a: string)
    requires NoSpace(a)
    ensures Unspaced(a) == a
  {
    if a != [] {
      UnspacedNoSpace(a[1..]);
    }
  }

  /** Leading whitespace contributes nothing to the non-whitespace
      characters. */
  lemma UnspacedLStrip(s: string)
    ensures Unspaced(s) == Unspaced(LStrip(s))
  {
    var t := LStrip(s);
    var k := |s| - |t|;
    assert s == s[..k] + t;
    UnspacedAppend(s[..k], t);
    UnspacedAllSpace(s[..k]);
  }

  /** A string's first word is the start of its non-whitespace
      characters. */
  lemma UnspacedWord(t: string)
    ensures Unspaced(t) == Word(t) + Unspaced(t[|Word(t)|..])
  {
    var w := Word(t);
    assert t == w + t[|w|..];
    UnspacedAppend(w, t[|w|..]);
    UnspacedNoSpace(w);
  }

  /** `split()` of a string with a non-whitespace character: its first word
      after the leading whitespace, then the split of the rest. */
  lemma SplitUnfold(s: string)
    requires LStrip(s) != []
    ensures Split(s) == [Word(LStrip(s))] + Split(LStrip(s)[|Word(LStrip(s))|..])
  {
  }

  /** `split()` loses exactly the whitespace: gluing its tokens back together
      gives the non-whitespace characters of the input, in order. */
  lemma {:induction false} SplitKeepsContents(s: string)
    ensures Concat(Split(s)) == Unspaced(s)
    decreases |s|
  {
    var t := LStrip(s);
    UnspacedLStrip(s);
    if t != [] {
      var w := Word(t);
      var rest := t[|w|..];
      SplitUnfold(s);
      UnspacedWord(t);
      SplitKeepsContents(rest);
      assert Concat([w] + Split(rest)) == w + Concat(Split(rest));
    } else {
      assert Unspaced([]) == [];
    }
  }

  /** The first token of `split()` starts at the first non-whitespace
      character and runs up to the next whitespace character or the end. */
  lemma FirstTokenShape(s: string)
    requires Split(s) != []
    ensures var w := Split(s)[0];
      && Lead(s) + |w| <= |s|
      && w == s[Lead(s)..Lead(s) + |w|]
      && AllSpace(s[..Lead(s)])
      && (Lead(s) + |w| == |s| || IsSpace(s[Lead(s) + |w|]))
  {
    var t := LStrip(s);
    var w := Word(t);
    assert Split(s)[0] == w;
    assert t == s[Lead(s)..];
    assert w == t[..|w|];
    assert |w| == |t| || IsSpace(t[|w|]);
  }

  /** Joins tokens with one space between neighbours (`' '.join(ts)`). */
  function JoinWith(ts: seq<string>, sep: char): string {
    if ts == [] then []
    else if |ts| == 1 then ts[0]
    else ts[0] + [sep] + JoinWith(ts[1..], sep)
  }

  lemma WordOfToken(w: string, rest: string)
    requires NoSpace(w)
    requires rest == [] || IsSpace(rest[0])
    ensures Word(w + rest) == w
    decreases |w|
  {
    if w != [] {
      assert (w + rest)[1..] == w[1..] + rest;
      WordOfToken(w[1..], rest);
    }
  }

  /** A clean token followed by whitespace or nothing is split off whole. */
  lemma SplitCons(w: string, rest: string)
    requires |w| > 0 && NoSpace(w)
    requires rest == [] || IsSpace(rest[0])
    ensures Split(w + rest) == [w] + Split(rest)
  {
    var s := w + rest;
    assert s[0] == w[0];
    assert LStrip(s) == s;
    WordOfToken(w, rest);
    assert s[|w|..] == rest;
  }

  /** Leading whitespace does not change the tokens. */
  lemma SplitSpaceCons(c: char, rest: string)
    requires IsSpace(c)
    ensures Split([c] + rest) == Split(rest)
  {
    assert ([c] + rest)[1..] == rest;
    assert LStrip([c] + rest) == LStrip(rest);
  }

  /** `split()` undoes a space-join of clean tokens. */
  lemma SplitJoinStep(ts: seq<string>)
    requires |ts| > 1 && |ts[0]| > 0 && NoSpace(ts[0])
    ensures Split(JoinWith(ts, ' ')) == [ts[0]] + Split(JoinWith(ts[1..], ' '))
  {
    var rest := JoinWith(ts[1..], ' ');
    assert JoinWith(ts, ' ') == ts[0] + ([' '] + rest);
    SplitCons(ts[0], [' '] + rest);
    SplitSpaceCons(' ', rest);
  }

  lemma SplitNil()
    ensures Split([]) == []
  {
    assert LStrip([]) == [];
  }

  /** A clean token splits into itself. */
  lemma SplitSingle(w: string)
    requires |w| > 0 && NoSpace(w)
    ensures Split(w) == [w]
  {
    assert LStrip(w) == w;
    assert Word(w) == w;
    assert w[|w|..] == [];
    SplitNil();
  }

  lemma {:induction false} SplitJoin(ts: seq<string>)
    requires CleanTokens(ts)
    ensures Split(JoinWith(ts, ' ')) == ts
  {
    if ts == [] {
      SplitNil();
    } else if |ts| == 1 {
      SplitSingle(ts[0]);
    } else {
      SplitJoinStep(ts);
      assert CleanTokens(ts[1..]);
      SplitJoin(ts[1..]);
      assert [ts[0]] + ts[1..] == ts;
    }
  }

  /** ASCII `lower()` of one character. */
  function LowerChar(c: char): char {
    if 'A' <= c <= 'Z' then (c as int + 32) as char else c
  }

  /** ASCII `upper()` of one character. */
  function UpperChar(c: char): char {
    if 'a' <= c <= 'z' then (c as int - 32) as char else c
  }

  /** `s.lower()` for a byte string. */
  function Lower(s: string): string {
    seq(|s|, i requires 0 <= i < |s| => LowerChar(s[i]))
  }

  /** `s.upper()` for a byte string. */
  function Upper(s: string): string {
    seq(|s|, i requires 0 <= i < |s| => UpperChar(s[i]))
  }

  /** Lowering twice is lowering once: the form the caseless index stores
      keys in is a fixed point. */
  lemma LowerIdempotent(s: string)
    ensures Lower(Lower(s)) == Lower(s)
  {
    assert forall i :: 0 <= i < |s| ==> LowerChar(LowerChar(s[i])) == LowerChar(s[i]);
  }

  /** `s.count(c)` for one character. */
  function Count(s: string, c: char): nat {
    multiset(s)[c]
  }

  /** `s.startswith(p)` */
  predicate StartsWith(s: string, p: string) {
    |p| <= |s| && s[..|p|] == p
  }

  /** `s.endswith(p)` */
  predicate EndsWith(s: string, p: string) {
    |p| <= |s| && s[|s| - |p|..] == p
  }

  /** `p in s` for strings: `p` occurs in `s` at some position. */
  predicate Contains(s: string, p: string)
    decreases |s|
  {
    StartsWith(s, p) || (|s| > 0 && Contains(s[1..], p))
  }

  /** `s.replace(c, rep)` for a one-character pattern `c`. */
  function ReplaceChar(s: string, c: char, rep: string): string {
    if s == [] then []
    else ReplaceChar(s[..|s| - 1], c, rep) + (if s[|s| - 1] == c then rep else [s[|s| - 1]])
  }

  /** What `replace` leaves and removes: a character other than `c` that the
      replacement does not bring in is present afterwards exactly when it was
      before; `c` itself is gone unless the replacement brings it back; a
      string without `c` is unchanged; and a last character other than `c`
      stays last. */
  lemma {:induction false} ReplaceCharFacts(s: string, c: char, rep: string)
    ensures c !in rep ==> c !in ReplaceChar(s, c, rep)
    ensures forall x | x != c && x !in rep :: x in ReplaceChar(s, c, rep) <==> x in s
    ensures c !in s ==> ReplaceChar(s, c, rep) == s
    ensures |s| > 0 && s[|s| - 1] != c ==>
      var r := ReplaceChar(s, c, rep); |r| > 0 && r[|r| - 1] == s[|s| - 1]
    decreases |s|
  {
    if s != [] {
      var p := s[..|s| - 1];
      ReplaceCharFacts(p, c, rep);
      assert s == p + [s[|s| - 1]];
    }
  }

  lemma {:induction false} ReplaceAppend(a: string, b: string, c: char, rep: string)
    ensures ReplaceChar(a + b, c, rep) == ReplaceChar(a, c, rep) + ReplaceChar(b, c, rep)
    decreases |b|
  {
    if b == [] {
      assert a + b == a;
    } else {
      var init := b[..|b| - 1];
      var x := b[|b| - 1];
      var tail := if x == c then rep else [x];
      assert (a + b)[..|a + b| - 1] == a + init;
      assert (a + b)[|a + b| - 1] == x;
      assert ReplaceChar(a + b, c, rep) == ReplaceChar(a + init, c, rep) + tail;
      assert ReplaceChar(b, c, rep) == ReplaceChar(init, c, rep) + tail;
      ReplaceAppend(a, init, c, rep);
    }
  }

  /** The decimal digit character for `d`. */
  function DigitChar(d: nat): char
    requires d < 10
  {
    "0123456789"[d]
  }

  function DigitValue(c: char): nat {
    if '0' <= c <= '9' then c as int - '0' as int else 0
  }

  /** `'%i' % n` for a natural number: its decimal numeral. */
  function Str(n: nat): (r: string)
    ensures |r| > 0
    ensures forall i :: 0 <= i < |r| ==> '0' <= r[i] <= '9'
  {
    if n < 10 then [DigitChar(n)] else Str(n / 10) + [DigitChar(n % 10)]
  }

  /** `int(s)` for a string of decimal digits. */
  function Parse(s: string): nat {
    if s == [] then 0 else Parse(s[..|s| - 1]) * 10 + DigitValue(s[|s| - 1])
  }

  lemma {:induction false} ParseStr(n: nat)
    ensures Parse(Str(n)) == n
  {
    if n >= 10 {
      var s := Str(n / 10) + [DigitChar(n % 10)];
      assert s[..|s| - 1] == Str(n / 10);
      ParseStr(n / 10);
    }
  }

  /** Distinct numbers format to distinct numerals. */
  lemma StrInjective(a: nat, b: nat)
    requires Str(a) == Str(b)
    ensures a == b
  {
    ParseStr(a);
    ParseStr(b);
  }
}

=== FILE: search.dfy ===
/**
 Searching the device tree: which indexed nodes a query matches
 (`getMatchingNodes`), and what `findInTree` does with them — select the
 first, then plan which items to expand (the ancestors of the matches) and
 which to collapse. Regular-expression matching is a parameter:
 `matches(pattern, text)` stands for `re.match(pattern, text)` succeeding.
 */
module Search {
  import opened Wrappers
  import opened PyStr
  import opened DevNames
  import opened DevTree

  /** `matches(pattern, text)`: whether the pattern matches at the start of
      the text. */
  type Matcher = (string, string) -> bool

  /** `compiles(pattern)`: whether `re` accepts the pattern; matching with
      a pattern it rejects raises `re.error`. */
  type Compiler = string -> bool

  /** The full display text of a node, lower-cased, as the search compares
      it: `getNodeText(node, full=True).lower()`. */
  function FullName(t: Tree, n: nat): string
    requires n < |t.nodes|
  {
    Lower(Strip(t.nodes[n].text))
  }

  /** Whether an exclusion pattern matches the entry's key or full name. */
  predicate Excluded(t: Tree, exclude: seq<string>, matches: Matcher, e: Entry)
    requires e.node < |t.nodes|
  {
    exists x :: x in exclude && (matches(Lower(x), Lower(e.key)) || matches(Lower(x), FullName(t, e.node)))
  }

  /** The exclusion test as Python evaluates it: the patterns in order,
      each tried on the key and then on the full name, stopping at the
      first match; `None` when it reaches a pattern `re` rejects. */
  function ExclusionScan(xs: seq<string>, key: string, name: string, matches: Matcher, compiles: Compiler)
    : Option<bool>
  {
    if xs == [] then Some(false)
    else if !compiles(Lower(xs[0])) then None
    else if matches(Lower(xs[0]), key) || matches(Lower(xs[0]), name) then Some(true)
    else ExclusionScan(xs[1..], key, name, matches, compiles)
  }

  /** When the exclusion test finishes, its answer is whether some pattern
      matches the key or the name; it finishes whenever every pattern
      compiles. */
  lemma {:induction false} ExclusionScanAgrees(xs: seq<string>, key: string, name: string, matches: Matcher,
                                               compiles: Compiler)
    ensures var r := ExclusionScan(xs, key, name, matches, compiles);
      r.Some? ==> (r.value <==> exists x :: x in xs && (matches(Lower(x), key) || matches(Lower(x), name)))
    ensures (forall x :: x in xs ==> compiles(Lower(x))) ==> ExclusionScan(xs, key, name, matches, compiles).Some?
    ensures ExclusionScan(xs, key, name, matches, compiles).None? ==> exists x :: x in xs && !compiles(Lower(x))
    decreases |xs|
  {
    if xs != [] {
      ExclusionScanAgrees(xs[1..], key, name, matches, compiles);
      assert forall x :: x in xs <==> x == xs[0] || x in xs[1..];
    }
  }

  /** Whether the search pattern matches the entry's key or full name. */
  predicate MainMatch(t: Tree, pattern: string, matches: Matcher, e: Entry)
    requires e.node < |t.nodes|
  {
    matches(pattern, e.key) || matches(pattern, FullName(t, e.node))
  }

  /** Whether the search pattern picks an index entry: it matches the key or
      the full name, and no exclusion pattern does. */
  predicate Picked(t: Tree, pattern: string, exclude: seq<string>, matches: Matcher, e: Entry)
    requires e.node < |t.nodes|
  {
    MainMatch(t, pattern, matches, e) && !Excluded(t, exclude, matches, e)
  }

  /** Whether testing the entry raises: the search pattern matches it, so
      the exclusion test runs, and that test reaches a pattern `re`
      rejects. */
  predicate RaisesAt(t: Tree, pattern: string, exclude: seq<string>, matches: Matcher, compiles: Compiler, e: Entry)
    requires e.node < |t.nodes|
  {
    MainMatch(t, pattern, matches, e)
      && ExclusionScan(exclude, Lower(e.key), FullName(t, e.node), matches, compiles).None?
  }

  predicate NodesIn(t: Tree, entries: seq<Entry>) {
    forall i :: 0 <= i < |entries| ==> entries[i].node < |t.nodes|
  }

  /** The nodes of the picked entries, in index order (an entry whose
      node is not in the tree is never picked). */
  function Selected(t: Tree, pattern: string, exclude: seq<string>, matches: Matcher, entries: seq<Entry>)
    : (r: seq<nat>)
    ensures |r| <= |entries|
    ensures forall k :: 0 <= k < |r| ==> r[k] < |t.nodes|
  {
    if entries == [] then []
    else
      var init := entries[..|entries| - 1];
      var last := entries[|entries| - 1];
      Selected(t, pattern, exclude, matches, init)
        + (if last.node < |t.nodes| && Picked(t, pattern, exclude, matches, last) then [last.node] else [])
  }

  /** Whether some entry holding node `n` is picked. */
  predicate PicksNode(t: Tree, pattern: string, exclude: seq<string>, matches: Matcher, entries: seq<Entry>, n: nat)
    requires NodesIn(t, entries)
  {
    exists i :: 0 <= i < |entries| && entries[i].node == n && Picked(t, pattern, exclude, matches, entries[i])
  }

  /** The selection holds exactly the nodes of the picked entries. */
  lemma {:induction false} SelectedMembers(t: Tree, pattern: string, exclude: seq<string>, matches: Matcher,
                                           entries: seq<Entry>, n: nat)
    requires NodesIn(t, entries)
    ensures n in Selected(t, pattern, exclude, matches, entries) <==> PicksNode(t, pattern, exclude, matches, entries, n)
  {
    if entries != [] {
      var init := entries[..|entries| - 1];
      var last := entries[|entries| - 1];
      assert NodesIn(t, init);
      SelectedMembers(t, pattern, exclude, matches, init, n);
      var tail := if Picked(t, pattern, exclude, matches, last) then [last.node] else [];
      assert Selected(t, pattern, exclude, matches, entries) == Selected(t, pattern, exclude, matches, init) + tail;
      if PicksNode(t, pattern, exclude, matches, init, n) {
        var i :| 0 <= i < |init| && init[i].node == n && Picked(t, pattern, exclude, matches, init[i]);
        assert entries[i] == init[i];
      }
      if PicksNode(t, pattern, exclude, matches, entries, n) {
        var i :| 0 <= i < |entries| && entries[i].node == n && Picked(t, pattern, exclude, matches, entries[i]);
        if i < |init| {
          assert init[i] == entries[i];
        }
      }
    }
  }

  /** Selecting from a prefix of the entries gives a prefix of the
      selection. */
  lemma {:induction false} SelectedPrefix(t: Tree, pattern: string, exclude: seq<string>, matches: Matcher,
                                          entries: seq<Entry>, j: nat)
    requires j <= |entries|
    ensures var all := Selected(t, pattern, exclude, matches, entries);
      var part := Selected(t, pattern, exclude, matches, entries[..j]);
      |part| <= |all| && part == all[..|part|]
    decreases |entries|
  {
    if j < |entries| {
      var init := entries[..|entries| - 1];
      SelectedPrefix(t, pattern, exclude, matches, init, j);
      assert init[..j] == entries[..j];
    } else {
      assert entries[..j] == entries;
    }
  }

  /** Selecting from one more entry adds that entry's node if it is
      picked. */
  lemma SelectedStep(t: Tree, pattern: string, exclude: seq<string>, matches: Matcher, entries: seq<Entry>, i: nat)
    requires NodesIn(t, entries) && i < |entries|
    ensures Picked(t, pattern, exclude, matches, entries[i]) ==>
      Selected(t, pattern, exclude, matches, entries[..i + 1])
        == Selected(t, pattern, exclude, matches, entries[..i]) + [entries[i].node]
    ensures !Picked(t, pattern, exclude, matches, entries[i]) ==>
      Selected(t, pattern, exclude, matches, entries[..i + 1]) == Selected(t, pattern, exclude, matches, entries[..i])
  {
    assert entries[..i + 1][..i] == entries[..i];
  }

  /** The most nodes a non-exhaustive search returns: one when `all` is
      unset, `limit` when it is positive, one when it is negative (the
      first match already reaches it), no bound for zero. */
  function Cap(all: bool, limit: int): (r: Option<nat>)
    ensures r.Some? ==> r.value >= 1
  {
    if !all then Some(1)
    else if limit > 0 then Some(limit)
    else if limit < 0 then Some(1)
    else None
  }

  /** At most `cap` of the front elements. */
  function Take(xs: seq<nat>, cap: Option<nat>): (r: seq<nat>)
    ensures cap.None? ==> r == xs
    ensures cap.Some? ==> |r| == if |xs| <= cap.value then |xs| else cap.value
    ensures |r| <= |xs| && r == xs[..|r|]
  {
    if cap.None? || |xs| <= cap.value then xs else xs[..cap.value]
  }

  /** `RaisesAt` as a test on entries, for the walk. */
  function Raiser(t: Tree, pattern: string, exclude: seq<string>, matches: Matcher, compiles: Compiler)
    : Entry -> bool
  {
    (e: Entry) => e.node < |t.nodes| && RaisesAt(t, pattern, exclude, matches, compiles, e)
  }

  /** Whether the walk over `entries` raises: it reaches an entry whose
      test `raises` before it has collected `cap` picked nodes. */
  predicate ScanRaises(t: Tree, pattern: string, exclude: seq<string>, matches: Matcher, raises: Entry -> bool,
                       entries: seq<Entry>, cap: Option<nat>)
  {
    exists i :: 0 <= i < |entries| && raises(entries[i])
      && (cap.None? || |Selected(t, pattern, exclude, matches, entries[..i])| < cap.value)
  }

  /** Whether the search for the pattern `re` rejects (`None` below) or
      an exclusion test raises on the walk over the whole index. */
  predicate SearchRaises(t: Tree, pattern: string, exclude: seq<string>, matches: Matcher, compiles: Compiler,
                         cap: Option<nat>)
    requires Valid(t)
  {
    || !compiles(pattern)
    || ScanRaises(t, pattern, exclude, matches, Raiser(t, pattern, exclude, matches, compiles), t.index, cap)
  }

  /** What `getMatchingNodes(query, limit, all, exclude)` answers, `None`
      standing for `re.error`: for a non-exhaustive search a query that is
      itself an index key gives that key's node; otherwise the picked
      nodes, in index order, cut at the cap, unless the extended pattern
      does not compile or an exclusion pattern that does not compile is
      reached first. */
  function MatchingNodes(t: Tree, query: string, limit: int, all: bool, exclude: seq<string>, matches: Matcher,
                         compiles: Compiler): Option<seq<nat>>
    requires Valid(t)
  {
    var q := Lower(query);
    if !all && Get(t.index, q).Some? then Some([Get(t.index, q).value])
    else if SearchRaises(t, ExtendRegexp(q), exclude, matches, compiles, Cap(all, limit)) then None
    else Some(Take(Selected(t, ExtendRegexp(q), exclude, matches, t.index), Cap(all, limit)))
  }

  /** `getMatchingNodes`: tries the exact key first, then compiles the
      extended pattern and walks the index, stopping as soon as the first
      match is found when `all` is unset or once `limit` (if non-zero)
      matches are found. */
  method GetMatchingNodes(t: Tree, query: string, limit: int, all: bool, exclude: seq<string>, matches: Matcher,
                          compiles: Compiler)
    returns (result: Option<seq<nat>>)
    requires Valid(t)
    ensures result == MatchingNodes(t, query, limit, all, exclude, matches, compiles)
  {
    var q := Lower(query);
    if !all {
      var node := Get(t.index, q);
      if node.Some? {
        return Some([node.value]);
      }
    }
    var pattern := ExtendRegexp(q);
    if !compiles(pattern) {
      return None;
    }
    var nodes, raised := Scan(t, t.index, pattern, limit, all, exclude, matches,
                              Raiser(t, pattern, exclude, matches, compiles));
    result := if raised then None else Some(nodes);
  }

  /** Once the selection from the first `j` entries reaches the cap, it is
      the capped selection from all of them. */
  lemma ScanStop(t: Tree, pattern: string, exclude: seq<string>, matches: Matcher, entries: seq<Entry>, j: nat,
                 cap: nat)
    requires j <= |entries|
    requires |Selected(t, pattern, exclude, matches, entries[..j])| == cap
    ensures Take(Selected(t, pattern, exclude, matches, entries), Some(cap))
      == Selected(t, pattern, exclude, matches, entries[..j])
  {
    SelectedPrefix(t, pattern, exclude, matches, entries, j);
  }

  /** A longer prefix of the entries selects at least as many nodes. */
  lemma SelectedGrows(t: Tree, pattern: string, exclude: seq<string>, matches: Matcher, entries: seq<Entry>,
                      i: nat, j: nat)
    requires i <= j <= |entries|
    ensures |Selected(t, pattern, exclude, matches, entries[..i])| <= |Selected(t, pattern, exclude, matches, entries[..j])|
  {
    SelectedPrefix(t, pattern, exclude, matches, entries[..j], i);
    assert entries[..j][..i] == entries[..i];
  }

  /** Once the cap is reached after entry `j`, no later entry can make the
      walk raise. */
  lemma CapReachedNoRaise(t: Tree, pattern: string, exclude: seq<string>, matches: Matcher, raises: Entry -> bool,
                          entries: seq<Entry>, j: nat, cap: nat)
    requires j < |entries|
    requires |Selected(t, pattern, exclude, matches, entries[..j + 1])| == cap
    requires forall k :: 0 <= k <= j ==> !raises(entries[k])
    ensures !ScanRaises(t, pattern, exclude, matches, raises, entries, Some(cap))
    ensures Take(Selected(t, pattern, exclude, matches, entries), Some(cap))
      == Selected(t, pattern, exclude, matches, entries[..j + 1])
  {
    ScanStop(t, pattern, exclude, matches, entries, j + 1, cap);
    forall i | 0 <= i < |entries| && raises(entries[i])
      ensures |Selected(t, pattern, exclude, matches, entries[..i])| >= cap
    {
      SelectedGrows(t, pattern, exclude, matches, entries, j + 1, i);
    }
  }


  /** The state of the walk after the first `i` entries: none of them
      raised, `sofar` holds the nodes picked among them, and the cap is not
      yet reached. */
  predicate Walked(t: Tree, pattern: string, exclude: seq<string>, matches: Matcher, raises: Entry -> bool,
                   entries: seq<Entry>, i: nat, sofar: seq<nat>, cap: Option<nat>)
  {
    && i <= |entries|
    && sofar == Selected(t, pattern, exclude, matches, entries[..i])
    && (cap.Some? ==> |sofar| < cap.value)
    && forall k :: 0 <= k < i ==> !raises(entries[k])
  }

  /** A walk over every entry without raising or reaching the cap has
      picked every node. */
  lemma WalkedAll(t: Tree, pattern: string, exclude: seq<string>, matches: Matcher, raises: Entry -> bool,
                  entries: seq<Entry>, sofar: seq<nat>, cap: Option<nat>)
    requires Walked(t, pattern, exclude, matches, raises, entries, |entries|, sofar, cap)
    ensures !ScanRaises(t, pattern, exclude, matches, raises, entries, cap)
    ensures sofar == Take(Selected(t, pattern, exclude, matches, entries), cap)
  {
    assert entries[..|entries|] == entries;
  }

  /** The walk over the index entries in `getMatchingNodes`: collects the
      picked nodes, stops once the cap is reached, and reports whether an
      exclusion test raised on the way. */
  method Scan(t: Tree, entries: seq<Entry>, pattern: string, limit: int, all: bool, exclude: seq<string>,
              matches: Matcher, raises: Entry -> bool)
    returns (result: seq<nat>, raised: bool)
    requires NodesIn(t, entries)
    ensures raised <==> ScanRaises(t, pattern, exclude, matches, raises, entries, Cap(all, limit))
    ensures !raised ==> result == Take(Selected(t, pattern, exclude, matches, entries), Cap(all, limit))
  {
    result, raised := [], false;
    var i := 0;
    assert entries[..0] == [];
    while i < |entries|
      invariant Walked(t, pattern, exclude, matches, raises, entries, i, result, Cap(all, limit)) && !raised
    {
      var stop;
      result, stop, raised := Visit(t, entries, i, result, pattern, limit, all, exclude, matches, raises);
      if stop {
        return;
      }
      i := i + 1;
    }
    WalkedAll(t, pattern, exclude, matches, raises, entries, result, Cap(all, limit));
  }

  /** One entry of the walk: raise, stop at the cap, or go on with the
      node added when the entry is picked. */
  method Visit(t: Tree, entries: seq<Entry>, i: nat, sofar: seq<nat>, pattern: string, limit: int, all: bool,
               exclude: seq<string>, matches: Matcher, raises: Entry -> bool)
    returns (result: seq<nat>, stop: bool, raised: bool)
    requires NodesIn(t, entries) && i < |entries|
    requires Walked(t, pattern, exclude, matches, raises, entries, i, sofar, Cap(all, limit))
    ensures raised ==> stop && ScanRaises(t, pattern, exclude, matches, raises, entries, Cap(all, limit))
    ensures stop && !raised ==>
      && !ScanRaises(t, pattern, exclude, matches, raises, entries, Cap(all, limit))
      && result == Take(Selected(t, pattern, exclude, matches, entries), Cap(all, limit))
    ensures !stop ==> !raised && Walked(t, pattern, exclude, matches, raises, entries, i + 1, result, Cap(all, limit))
  {
    var e := entries[i];
    result, stop, raised := sofar, false, false;
    if raises(e) {
      RaiseHere(t, pattern, exclude, matches, raises, entries, i, Cap(all, limit));
      return result, true, true;
    }
    SelectedStep(t, pattern, exclude, matches, entries, i);
    if Picked(t, pattern, exclude, matches, e) {
      result := result + [e.node];
      if (!all && |result| == 1) || (limit != 0 && |result| >= limit) {
        CapReachedNoRaise(t, pattern, exclude, matches, raises, entries, i, Cap(all, limit).value);
        return result, true, false;
      }
    }
  }

  /** An entry whose test raises, reached before the cap, makes the walk
      raise. */
  lemma RaiseHere(t: Tree, pattern: string, exclude: seq<string>, matches: Matcher, raises: Entry -> bool,
                  entries: seq<Entry>, i: nat, cap: Option<nat>)
    requires i < |entries|
    requires raises(entries[i])
    requires cap.None? || |Selected(t, pattern, exclude, matches, entries[..i])| < cap.value
    ensures ScanRaises(t, pattern, exclude, matches, raises, entries, cap)
  {
  }

  /** A walk that raises reaches an entry whose test raises. */
  lemma RaisingEntry(t: Tree, pattern: string, exclude: seq<string>, matches: Matcher, raises: Entry -> bool,
                     entries: seq<Entry>, cap: Option<nat>)
    requires ScanRaises(t, pattern, exclude, matches, raises, entries, cap)
    ensures exists i :: 0 <= i < |entries| && raises(entries[i])
  {
  }

  /** A walk over entries none of whose tests raise does not raise. */
  lemma NoRaiseAtEnd(t: Tree, pattern: string, exclude: seq<string>, matches: Matcher, raises: Entry -> bool,
                     entries: seq<Entry>, cap: Option<nat>)
    requires forall k :: 0 <= k < |entries| ==> !raises(entries[k])
    ensures !ScanRaises(t, pattern, exclude, matches, raises, entries, cap)
  {
  }

  /** The promises of `getMatchingNodes`: a non-exhaustive search returns
      at most one node, and exactly the key's node when the lower-cased
      query is an index key; a positive limit bounds the answer; without a
      cap the answer is every picked node; and every node returned is
      either the key's node or picked by the extended pattern. */
  lemma MatchingNodesBounds(t: Tree, query: string, limit: int, all: bool, exclude: seq<string>,
                            matches: Matcher, compiles: Compiler)
    requires Valid(t)
    ensures var r := MatchingNodes(t, query, limit, all, exclude, matches, compiles);
      && (!all && Get(t.index, Lower(query)).Some? ==> r == Some([Get(t.index, Lower(query)).value]))
      && (r.Some? ==>
            && (!all ==> |r.value| <= 1)
            && (limit > 0 ==> |r.value| <= limit)
            && (all && limit == 0 ==> r.value == Selected(t, ExtendRegexp(Lower(query)), exclude, matches, t.index))
            && (forall n :: n in r.value ==>
                  Get(t.index, Lower(query)) == Some(n)
                  || PicksNode(t, ExtendRegexp(Lower(query)), exclude, matches, t.index, n)))
  {
    var r := MatchingNodes(t, query, limit, all, exclude, matches, compiles);
    var pattern := ExtendRegexp(Lower(query));
    if r.Some? {
      forall n | n in r.value
        ensures Get(t.index, Lower(query)) == Some(n) || PicksNode(t, pattern, exclude, matches, t.index, n)
      {
        SelectedMembers(t, pattern, exclude, matches, t.index, n);
      }
    }
  }

  /** `getMatchingNodes` raises only when the extended pattern or some
      exclusion pattern does not compile, and then only when the key
      shortcut does not apply. */
  lemma MatchingNodesErrors(t: Tree, query: string, limit: int, all: bool, exclude: seq<string>,
                            matches: Matcher, compiles: Compiler)
    requires Valid(t)
    ensures MatchingNodes(t, query, limit, all, exclude, matches, compiles).None? ==>
      && (all || Get(t.index, Lower(query)).None?)
      && (!compiles(ExtendRegexp(Lower(query))) || exists x :: x in exclude && !compiles(Lower(x)))
  {
    var pattern := ExtendRegexp(Lower(query));
    if MatchingNodes(t, query, limit, all, exclude, matches, compiles).None? && compiles(pattern) {
      var raises := Raiser(t, pattern, exclude, matches, compiles);
      RaisingEntry(t, pattern, exclude, matches, raises, t.index, Cap(all, limit));
      var i :| 0 <= i < |t.index| && raises(t.index[i]);
      ExclusionScanAgrees(exclude, Lower(t.index[i].key), FullName(t, t.index[i].node), matches, compiles);
    }
  }

  /** When the extended pattern and every exclusion pattern compile,
      `getMatchingNodes` does not raise. */
  lemma MatchingNodesCompile(t: Tree, query: string, limit: int, all: bool, exclude: seq<string>,
                             matches: Matcher, compiles: Compiler)
    requires Valid(t)
    requires compiles(ExtendRegexp(Lower(query))) && forall x :: x in exclude ==> compiles(Lower(x))
    ensures MatchingNodes(t, query, limit, all, exclude, matches, compiles).Some?
  {
    NoExclusionRaises(t, ExtendRegexp(Lower(query)), exclude, matches, compiles, t.index, Cap(all, limit));
  }

  /** When every exclusion pattern compiles, no walk raises. */
  lemma NoExclusionRaises(t: Tree, pattern: string, exclude: seq<string>, matches: Matcher, compiles: Compiler,
                          entries: seq<Entry>, cap: Option<nat>)
    requires forall x :: x in exclude ==> compiles(Lower(x))
    ensures !ScanRaises(t, pattern, exclude, matches, Raiser(t, pattern, exclude, matches, compiles), entries, cap)
  {
    forall i | 0 <= i < |entries|
      ensures !Raiser(t, pattern, exclude, matches, compiles)(entries[i])
    {
      if entries[i].node < |t.nodes| {
        ExclusionScanAgrees(exclude, Lower(entries[i].key), FullName(t, entries[i].node), matches, compiles);
      }
    }
  }

  /** One queued expand (`true`) or collapse (`false`) request. */
  datatype Op = Op(item: nat, expand: bool)

  /** The expand/collapse plan over the items in the given order: an
      ancestor of a match that is not expanded is expanded, and with
      `collapsing` an expanded item that is not such an ancestor is
      collapsed. */
  function Plan(order: seq<nat>, expanded: set<nat>, parents: set<nat>, collapsing: bool): (r: seq<Op>)
    ensures |r| <= |order|
    ensures forall x :: Op(x, true) in r <==> x in order && x in parents && x !in expanded
    ensures forall x :: Op(x, false) in r <==> x in order && x !in parents && x in expanded && collapsing
    ensures forall k :: 0 <= k < |r| ==> r[k].item in order
  {
    if order == [] then []
    else
      var x := order[0];
      var rest := Plan(order[1..], expanded, parents, collapsing);
      assert forall y :: y in order <==> y == x || y in order[1..];
      if x in parents && x !in expanded then [Op(x, true)] + rest
      else if x !in parents && x in expanded && collapsing then [Op(x, false)] + rest
      else rest
  }

  /** Whether no item is queued twice. */
  predicate OpsDistinct(ops: seq<Op>) {
    forall i, j :: 0 <= i < j < |ops| ==> ops[i].item != ops[j].item
  }

  /** Whether a list holds no item twice. */
  predicate Once(order: seq<nat>) {
    forall i, j :: 0 <= i < j < |order| ==> order[i] != order[j]
  }

  lemma ConsDistinct(op: Op, rest: seq<Op>)
    requires OpsDistinct(rest) && forall k :: 0 <= k < |rest| ==> rest[k].item != op.item
    ensures OpsDistinct([op] + rest)
  {
    var r := [op] + rest;
    forall i, j | 0 <= i < j < |r| ensures r[i].item != r[j].item {
      assert r[j] == rest[j - 1];
      if i > 0 {
        assert r[i] == rest[i - 1];
      }
    }
  }

  /** When the order lists each item once, no item is planned twice. */
  lemma {:induction false} PlanDistinct(order: seq<nat>, expanded: set<nat>, parents: set<nat>, collapsing: bool)
    requires Once(order)
    ensures OpsDistinct(Plan(order, expanded, parents, collapsing))
  {
    if order != [] {
      var x := order[0];
      var tail := order[1..];
      assert Once(tail) by {
        forall i, j | 0 <= i < j < |tail| ensures tail[i] != tail[j] {
          assert tail[i] == order[i + 1] && tail[j] == order[j + 1];
        }
      }
      PlanDistinct(tail, expanded, parents, collapsing);
      var rest := Plan(tail, expanded, parents, collapsing);
      assert x !in tail by {
        forall k | 0 <= k < |tail| ensures tail[k] != x {
          assert tail[k] == order[k + 1];
        }
      }
      forall k | 0 <= k < |rest| ensures rest[k].item != x {
        assert rest[k].item in tail;
      }
      if x in parents && x !in expanded {
        ConsDistinct(Op(x, true), rest);
      } else if x !in parents && x in expanded && collapsing {
        ConsDistinct(Op(x, false), rest);
      }
    }
  }

  /** The proper ancestors of one node, as a set. */
  function AncestorSet(t: Tree, n: nat): set<nat>
    requires Valid(t) && n < |t.nodes|
  {
    set a | a in Ancestors(t.nodes, n)
  }

  /** All proper ancestors of the given nodes (the set of parents on their
      paths). */
  function ParentsOf(t: Tree, found: seq<nat>): set<nat>
    requires Valid(t)
    requires forall i :: 0 <= i < |found| ==> found[i] < |t.nodes|
  {
    if found == [] then {} else AncestorSet(t, found[0]) + ParentsOf(t, found[1..])
  }

  /** An item is among the parents exactly when it lies on the path of one
      of the found nodes. */
  lemma {:induction false} ParentsOfMembers(t: Tree, found: seq<nat>, a: nat)
    requires Valid(t)
    requires forall i :: 0 <= i < |found| ==> found[i] < |t.nodes|
    ensures a in ParentsOf(t, found) <==> exists i :: 0 <= i < |found| && a in Ancestors(t.nodes, found[i])
  {
    if found != [] {
      ParentsOfMembers(t, found[1..], a);
      if exists i :: 0 <= i < |found| && a in Ancestors(t.nodes, found[i]) {
        var i :| 0 <= i < |found| && a in Ancestors(t.nodes, found[i]);
        if i > 0 {
          assert found[1..][i - 1] == found[i];
        }
      }
      if exists i :: 0 <= i < |found[1..]| && a in Ancestors(t.nodes, found[1..][i]) {
        var i :| 0 <= i < |found[1..]| && a in Ancestors(t.nodes, found[1..][i]);
        assert found[i + 1] == found[1..][i];
      }
    }
  }

  /** What a `findInTree` call did: the queued requests, the item it
      selected, the device name it announced, and whether it stopped on an
      exception (which the method logs and swallows). */
  datatype FindResult = FindResult(ops: seq<Op>, selected: Option<nat>, announced: Option<string>, failed: bool)

  const Nothing := FindResult([], None, None, false)

  /** What `findInTree` leaves when `getMatchingNodes` raises `re.error`:
      the bare `except` logs the failure and nothing is selected or
      queued. */
  const PatternFailed := FindResult([], None, None, true)

  /** The number of matches above which the user is asked to confirm. */
  const ConfirmThreshold := 50

  /** Whether `order` lists every item exactly once (Python's set
      iteration). */
  predicate ListsItems(t: Tree, order: seq<nat>) {
    && (forall x :: x in order ==> x in t.items)
    && (forall x :: x in t.items ==> x in order)
    && Once(order)
  }

  /** The query as `findInTree` uses it: lower-cased, then stripped. */
  function Query(query: string): string {
    Strip(Lower(query))
  }

  /** The nodes `findInTree` works on: `getMatchingNodes` with `all` set and
      no limit, which is every picked node. */
  function Found(t: Tree, q: string, exclude: seq<string>, matches: Matcher): (r: seq<nat>)
    requires Valid(t)
    ensures forall k :: 0 <= k < |r| ==> r[k] < |t.nodes|
  {
    Selected(t, ExtendRegexp(q), exclude, matches, t.index)
  }

  /** Whether collecting the parents of the matches raises: `getNodePath`
      asks every ancestor of every match for its device name, and one with
      none and a blank label raises `IndexError`. */
  predicate PathRaises(t: Tree, found: seq<nat>)
    requires Valid(t)
    requires forall k :: 0 <= k < |found| ==> found[k] < |t.nodes|
  {
    exists a :: a in ParentsOf(t, found) && a < |t.nodes| && NodeDeviceName(t.nodes, a).None?
  }

  /** What `findInTree` does once some node matched and the search goes
      ahead: a selecting search selects the first match (announcing its
      device name) and logs its label; then the parents of all matches are
      collected and the plan is queued. A blank label on the first match
      when selecting, or on an ancestor without a device name, raises before
      anything is queued. */
  function Respond(t: Tree, found: seq<nat>, select: bool, order: seq<nat>): (r: FindResult)
    requires Valid(t)
    requires found != [] && forall k :: 0 <= k < |found| ==> found[k] < |t.nodes|
  {
    var first := found[0];
    var device := NodeDeviceName(t.nodes, first);
    var announced := if !select || device.None? then None else DeviceSelected(device.value, device);
    var failed := (select && NodeText(Some(t.nodes[first].text), false).None?) || PathRaises(t, found);
    var plan := Plan(order, t.expanded, ParentsOf(t, found), t.collapsingSearch);
    FindResult(if failed then [] else plan, if select then Some(first) else None, announced, failed)
  }

  /** What `findInTree` does when nothing matched: collapse every expanded
      item if collapsing applies. */
  function NothingFound(t: Tree, collapseAll: Option<bool>, order: seq<nat>): FindResult {
    var collapse := collapseAll.GetOr(t.collapsingSearch);
    FindResult(if collapse then Plan(order, t.expanded, {}, true) else [], None, None, false)
  }

  /** `findInTree(query, collapseAll, exclude, select)`, with `proceed` the
      user's answer when more than 50 nodes match, `order` the iteration
      order of the item set and `compiles` telling which patterns `re`
      accepts. */
  function FindInTree(t: Tree, query: string, collapseAll: Option<bool>, exclude: seq<string>, select: bool,
                      proceed: bool, order: seq<nat>, matches: Matcher, compiles: Compiler): (r: FindResult)
    requires Valid(t) && ListsItems(t, order)
  {
    var q := Query(query);
    if q == [] then Nothing
    else if SearchRaises(t, ExtendRegexp(q), exclude, matches, compiles, None) then PatternFailed
    else
      var found := Found(t, q, exclude, matches);
      if |found| > ConfirmThreshold && !proceed then Nothing
      else if found != [] then Respond(t, found, select, order)
      else NothingFound(t, collapseAll, order)
  }

  /** Whatever the branch: a failed search queues nothing, only a selecting
      search selects a node, and a device name is announced only for a
      selected node. */
  lemma FindOutcome(t: Tree, query: string, collapseAll: Option<bool>, exclude: seq<string>, select: bool,
                    proceed: bool, order: seq<nat>, matches: Matcher, compiles: Compiler)
    requires Valid(t) && ListsItems(t, order)
    ensures var r := FindInTree(t, query, collapseAll, exclude, select, proceed, order, matches, compiles);
      && (r.failed ==> r.ops == [])
      && (r.selected.Some? ==> select && r.selected.value < |t.nodes|)
      && (r.announced.Some? ==> r.selected.Some?)
  {
  }

  /** A blank query does nothing. */
  lemma FindBlank(t: Tree, query: string, collapseAll: Option<bool>, exclude: seq<string>, select: bool,
                  proceed: bool, order: seq<nat>, matches: Matcher, compiles: Compiler)
    requires Valid(t) && ListsItems(t, order)
    ensures AllSpace(query) <==> Query(query) == []
    ensures AllSpace(query) ==> FindInTree(t, query, collapseAll, exclude, select, proceed, order, matches, compiles) == Nothing
  {
    StripBlank(Lower(query));
    assert AllSpace(Lower(query)) <==> AllSpace(query) by {
      assert forall k :: 0 <= k < |query| ==> Lower(query)[k] == LowerChar(query[k]);
    }
  }

  /** No item is ever queued twice. */
  lemma FindQueuesOnce(t: Tree, query: string, collapseAll: Option<bool>, exclude: seq<string>, select: bool,
                       proceed: bool, order: seq<nat>, matches: Matcher, compiles: Compiler)
    requires Valid(t) && ListsItems(t, order)
    ensures OpsDistinct(FindInTree(t, query, collapseAll, exclude, select, proceed, order, matches, compiles).ops)
  {
    var q := Query(query);
    var found := Found(t, q, exclude, matches);
    if found != [] {
      RespondOnce(t, found, select, order);
    }
    NothingFoundOnce(t, collapseAll, order);
  }

  /** The plan queued once matches exist lists no item twice. */
  lemma RespondOnce(t: Tree, found: seq<nat>, select: bool, order: seq<nat>)
    requires Valid(t) && ListsItems(t, order)
    requires found != [] && forall k :: 0 <= k < |found| ==> found[k] < |t.nodes|
    ensures OpsDistinct(Respond(t, found, select, order).ops)
  {
    PlanDistinct(order, t.expanded, ParentsOf(t, found), t.collapsingSearch);
  }

  /** The collapse plan queued when nothing matches lists no item twice. */
  lemma NothingFoundOnce(t: Tree, collapseAll: Option<bool>, order: seq<nat>)
    requires ListsItems(t, order)
    ensures OpsDistinct(NothingFound(t, collapseAll, order).ops)
  {
    PlanDistinct(order, t.expanded, {}, true);
  }


  /** A search whose pattern, or an exclusion pattern reached on the walk,
      does not compile fails with nothing selected or queued; when every
      pattern compiles it does not fail this way. */
  lemma FindPatternError(t: Tree, query: string, collapseAll: Option<bool>, exclude: seq<string>, select: bool,
                         proceed: bool, order: seq<nat>, matches: Matcher, compiles: Compiler)
    requires Valid(t) && ListsItems(t, order)
    ensures var pattern := ExtendRegexp(Query(query));
      Query(query) != [] && SearchRaises(t, pattern, exclude, matches, compiles, None) ==>
        FindInTree(t, query, collapseAll, exclude, select, proceed, order, matches, compiles) == PatternFailed
    ensures var pattern := ExtendRegexp(Query(query));
      compiles(pattern) && (forall x :: x in exclude ==> compiles(Lower(x))) ==>
        !SearchRaises(t, pattern, exclude, matches, compiles, None)
  {
    var pattern := ExtendRegexp(Query(query));
    if compiles(pattern) && forall x :: x in exclude ==> compiles(Lower(x)) {
      NoExclusionRaises(t, pattern, exclude, matches, compiles, t.index, None);
    }
  }

  /** More than 50 matches without the user's go-ahead does nothing. */
  lemma FindCancelled(t: Tree, query: string, collapseAll: Option<bool>, exclude: seq<string>, select: bool,
                      proceed: bool, order: seq<nat>, matches: Matcher, compiles: Compiler)
    requires Valid(t) && ListsItems(t, order)
    requires |Found(t, Query(query), exclude, matches)| > ConfirmThreshold && !proceed
    requires !SearchRaises(t, ExtendRegexp(Query(query)), exclude, matches, compiles, None)
    ensures FindInTree(t, query, collapseAll, exclude, select, proceed, order, matches, compiles) == Nothing
  {
  }

  /** When some node matches and the search goes ahead: a selecting search
      selects the first match; unless it failed, an item is queued for
      expansion exactly when it is an ancestor of a match and not expanded,
      and for collapse exactly when it is expanded, no ancestor of a match
      and `collapsing_search` is set; it fails exactly when selecting and
      the first match's label is blank, or when some match has an ancestor
      without a device name whose label is blank. */
  lemma FindFoundPlan(t: Tree, query: string, collapseAll: Option<bool>, exclude: seq<string>, select: bool,
                      proceed: bool, order: seq<nat>, matches: Matcher, compiles: Compiler, x: nat)
    requires Valid(t) && ListsItems(t, order)
    requires var found := Found(t, Query(query), exclude, matches);
      Query(query) != [] && found != [] && (|found| <= ConfirmThreshold || proceed)
    requires !SearchRaises(t, ExtendRegexp(Query(query)), exclude, matches, compiles, None)
    ensures var r := FindInTree(t, query, collapseAll, exclude, select, proceed, order, matches, compiles);
      var found := Found(t, Query(query), exclude, matches);
      && (select ==> r.selected == Some(found[0]))
      && (!select ==> r.announced.None?)
      && (select ==> var d := NodeDeviceName(t.nodes, found[0]);
            r.announced == (if d.Some? && Count(d.value, '/') == 2 then d else None))
      && (r.failed <==> || (select && AllSpace(t.nodes[found[0]].text))
                        || exists k, a :: 0 <= k < |found| && a in Ancestors(t.nodes, found[k])
                             && a < |t.nodes| && t.nodes[a].deviceName == "" && AllSpace(t.nodes[a].text))
      && (!r.failed && x in t.items ==>
            && (Op(x, true) in r.ops <==> x in ParentsOf(t, found) && x !in t.expanded)
            && (Op(x, false) in r.ops <==> x !in ParentsOf(t, found) && x in t.expanded && t.collapsingSearch))
  {
    var found := Found(t, Query(query), exclude, matches);
    assert FindInTree(t, query, collapseAll, exclude, select, proceed, order, matches, compiles)
      == Respond(t, found, select, order);
    RespondPlan(t, found, select, order, x);
  }

  lemma RespondPlan(t: Tree, found: seq<nat>, select: bool, order: seq<nat>, x: nat)
    requires Valid(t) && ListsItems(t, order)
    requires found != [] && forall k :: 0 <= k < |found| ==> found[k] < |t.nodes|
    ensures var r := Respond(t, found, select, order);
      && (select ==> r.selected == Some(found[0]))
      && (!select ==> r.announced.None?)
      && (select ==> var d := NodeDeviceName(t.nodes, found[0]);
            r.announced == (if d.Some? && Count(d.value, '/') == 2 then d else None))
      && (r.failed <==> || (select && AllSpace(t.nodes[found[0]].text))
                        || exists k, a :: 0 <= k < |found| && a in Ancestors(t.nodes, found[k])
                             && a < |t.nodes| && t.nodes[a].deviceName == "" && AllSpace(t.nodes[a].text))
      && (!r.failed && x in t.items ==>
            && (Op(x, true) in r.ops <==> x in ParentsOf(t, found) && x !in t.expanded)
            && (Op(x, false) in r.ops <==> x !in ParentsOf(t, found) && x in t.expanded && t.collapsingSearch))
  {
    IndexKeyShape(t.nodes[found[0]].text);
    PathRaisesAt(t, found);
  }

  /** A match under a top-level item with a blank label and no device name
      (as `setTopItemName` can leave it): `getNodePath` raises for it, so
      even a search that does not select fails and queues nothing. */
  lemma BlankParentFails()
    ensures var t := Tree([Node("  ", "", false, None), Node("dev", "", false, Some(0))], [], {1}, {}, false);
      Valid(t) && Respond(t, [1], false, [1]) == FindResult([], None, None, true)
  {
    var t := Tree([Node("  ", "", false, None), Node("dev", "", false, Some(0))], [], {1}, {}, false);
    assert Ancestors(t.nodes, 1) == [0];
    assert AllSpace(t.nodes[0].text);
    PathRaisesAt(t, [1]);
  }

  /** Collecting the parents raises exactly when some match has an
      ancestor with no device name and a blank label. */
  lemma PathRaisesAt(t: Tree, found: seq<nat>)
    requires Valid(t)
    requires forall k :: 0 <= k < |found| ==> found[k] < |t.nodes|
    ensures PathRaises(t, found) <==>
      exists k, a :: 0 <= k < |found| && a in Ancestors(t.nodes, found[k])
        && a < |t.nodes| && t.nodes[a].deviceName == "" && AllSpace(t.nodes[a].text)
  {
    if PathRaises(t, found) {
      var a :| a in ParentsOf(t, found) && a < |t.nodes| && NodeDeviceName(t.nodes, a).None?;
      ParentsOfMembers(t, found, a);
    }
    if exists k, a :: 0 <= k < |found| && a in Ancestors(t.nodes, found[k])
        && a < |t.nodes| && t.nodes[a].deviceName == "" && AllSpace(t.nodes[a].text) {
      var k, a :| 0 <= k < |found| && a in Ancestors(t.nodes, found[k])
        && a < |t.nodes| && t.nodes[a].deviceName == "" && AllSpace(t.nodes[a].text);
      ParentsOfMembers(t, found, a);
      assert NodeDeviceName(t.nodes, a).None?;
    }
  }

  /** When nothing matches, exactly the expanded items are collapsed if
      collapsing applies (the `collapseAll` argument, defaulting to
      `collapsing_search`), and nothing is queued otherwise. */
  lemma FindNothingFound(t: Tree, query: string, collapseAll: Option<bool>, exclude: seq<string>, select: bool,
                         proceed: bool, order: seq<nat>, matches: Matcher, compiles: Compiler, x: nat)
    requires Valid(t) && ListsItems(t, order)
    requires Query(query) != [] && Found(t, Query(query), exclude, matches) == []
    requires !SearchRaises(t, ExtendRegexp(Query(query)), exclude, matches, compiles, None)
    ensures var r := FindInTree(t, query, collapseAll, exclude, select, proceed, order, matches, compiles);
      && r.selected.None? && !r.failed
      && (collapseAll.GetOr(t.collapsingSearch) ==>
            (Op(x, false) in r.ops <==> x in t.items && x in t.expanded) && Op(x, true) !in r.ops)
      && (!collapseAll.GetOr(t.collapsingSearch) ==> r.ops == [])
  {
  }
}

=== FILE: synoptic.dfy ===
/**
 Naming of the main synoptic panels: the panel is named after the synoptic
 file (its base name without extension), shortened to "Syn" when long, and
 made unique among the existing panel names by a numeric suffix.
 */
module SynopticNames {
  import opened PyStr

  /** Index of the last occurrence of `c` in `s`, or -1 (Python's `rfind`). */
  function RFind(s: string, c: char): (r: int)
    ensures -1 <= r < |s|
    ensures r >= 0 ==> s[r] == c
    ensures forall k :: r < k < |s| ==> s[k] != c
  {
    if s == [] then -1
    else if s[|s| - 1] == c then |s| - 1
    else RFind(s[..|s| - 1], c)
  }

  /** `os.path.basename` on a POSIX path: what follows the last '/'. */
  function Basename(path: string): (r: string)
    ensures forall j :: 0 <= j < |r| ==> r[j] != '/'
    ensures |r| <= |path| && r == path[|path| - |r|..]
    ensures r == path || path[|path| - |r| - 1] == '/'
  {
    path[RFind(path, '/') + 1..]
  }

  /** The root part of `os.path.splitext` on a name without '/': the name up
      to its last '.', unless that dot is preceded only by dots (a hidden
      file such as ".profile" has no extension). */
  function Stem(name: string): (r: string)
    ensures |r| <= |name| && r == name[..|r|]
    ensures r == name || (name[|r|] == '.' && forall j :: |r| < j < |name| ==> name[j] != '.')
    ensures r != name <==> exists i, k :: 0 <= k < i < |name| && name[i] == '.' && name[k] != '.'
  {
    var d := RFind(name, '.');
    if d > 0 && exists k :: 0 <= k < d && name[k] != '.' then name[..d] else name
  }

  /** The first candidate name: the stem of the synoptic file, replaced by
      "Syn" when longer than ten characters. */
  function ShortName(path: string): (r: string)
    ensures |r| <= 10
    ensures |Stem(Basename(path))| <= 10 ==> r == Stem(Basename(path))
    ensures |Stem(Basename(path))| > 10 ==> r == "Syn"
  {
    var stem := Stem(Basename(path));
    if |stem| > 10 then "Syn" else stem
  }

  /** The `i`-th fallback candidate, `'%s_%i' % (prefix, i)`. */
  function Suffixed(prefix: string, i: nat): string {
    prefix + "_" + Str(i)
  }

  lemma SuffixedInjective(prefix: string, a: nat, b: nat)
    requires Suffixed(prefix, a) == Suffixed(prefix, b)
    ensures a == b
  {
    var n := |prefix| + 1;
    assert Suffixed(prefix, a)[n..] == Str(a);
    assert Suffixed(prefix, b)[n..] == Str(b);
    StrInjective(a, b);
  }

  /** The fallback candidates numbered `lo` up to (not including) `hi`. */
  ghost function Candidates(prefix: string, lo: nat, hi: nat): set<string> {
    set i | lo <= i < hi :: Suffixed(prefix, i)
  }

  /** Distinct numbers give distinct candidates, so there are `hi - lo`. */
  lemma {:induction false} CandidatesCount(prefix: string, lo: nat, hi: nat)
    requires lo <= hi
    ensures |Candidates(prefix, lo, hi)| == hi - lo
    decreases hi - lo
  {
    if lo < hi {
      CandidatesCount(prefix, lo, hi - 1);
      assert Candidates(prefix, lo, hi) == Candidates(prefix, lo, hi - 1) + {Suffixed(prefix, hi - 1)};
      if Suffixed(prefix, hi - 1) in Candidates(prefix, lo, hi - 1) {
        var i :| lo <= i < hi - 1 && Suffixed(prefix, i) == Suffixed(prefix, hi - 1);
        SuffixedInjective(prefix, i, hi - 1);
      }
    } else {
      assert Candidates(prefix, lo, hi) == {};
    }
  }

  /** The unique-name loop of `createMainSynoptic`: keep the short name if it
      is free, otherwise try `prefix_2`, `prefix_3`, ... and take the first
      one that is not already a panel name. */
  method UniqueName(taken: set<string>, path: string) returns (name: string)
    ensures name !in taken
    ensures ShortName(path) !in taken ==> name == ShortName(path)
    ensures ShortName(path) in taken ==>
      exists i :: 2 <= i && name == Suffixed(ShortName(path), i)
        && forall j :: 2 <= j < i ==> Suffixed(ShortName(path), j) in taken
  {
    var prefix := ShortName(path);
    name := prefix;
    var i: nat := 2;
    while name in taken
      invariant i >= 2
      invariant i == 2 ==> name == prefix
      invariant i > 2 ==> prefix in taken && name == Suffixed(prefix, i - 1)
      invariant forall j :: 2 <= j < i - 1 ==> Suffixed(prefix, j) in taken
      decreases |taken| - (i - 2)
    {
      if i > 2 {
        TakenBound(prefix, taken, i);
      }
      name := Suffixed(prefix, i);
      i := i + 1;
    }
  }

  /** When the candidates numbered 2 up to `hi` are all taken, there are at
      least that many taken names: the bound that ends the search. */
  lemma TakenBound(prefix: string, taken: set<string>, hi: nat)
    requires 2 <= hi
    requires forall j :: 2 <= j < hi ==> Suffixed(prefix, j) in taken
    ensures hi - 2 <= |taken|
  {
    var c := Candidates(prefix, 2, hi);
    CandidatesCount(prefix, 2, hi);
    assert c <= taken;
    assert taken == c + (taken - c);
  }
}

=== FILE: tangodict.dfy ===
/**
 The domain/family/member dictionary the device tree is built from
 (`getTangoDict`): the device names matching the filters, upper-cased, are
 grouped by their first name field (domain) and second name field (family);
 a name is listed under both only when it has a third field. The device
 lookup itself is a parameter: `matching(filters)` stands for
 `get_matching_devices(db, filters)`.
 */
module TangoDict {
  import opened Wrappers
  import opened PyStr
  import opened DevNames

  /** `s.split(c)`: the pieces between the occurrences of `c`. */
  function Fields(s: string, c: char): (r: seq<string>)
    ensures |r| >= 1
    ensures forall k :: 0 <= k < |r| ==> c !in r[k]
  {
    if s == [] then [""]
    else
      var rest := Fields(s[1..], c);
      if s[0] == c then [""] + rest
      else
        assert c !in [s[0]] + rest[0];
        [[s[0]] + rest[0]] + rest[1..]
  }

  /** Joining the pieces with the separator gives the string back. */
  lemma {:induction false} FieldsJoin(s: string, c: char)
    ensures JoinWith(Fields(s, c), c) == s
  {
    if s != [] {
      var rest := Fields(s[1..], c);
      FieldsJoin(s[1..], c);
      if s[0] == c {
        assert JoinWith(Fields(s, c), c) == "" + [c] + JoinWith(rest, c);
      } else if |rest| == 1 {
        assert JoinWith(Fields(s, c), c) == [s[0]] + rest[0];
      } else {
        assert JoinWith(rest, c) == rest[0] + [c] + JoinWith(rest[1..], c);
        assert Fields(s, c)[1..] == rest[1..];
        assert JoinWith(Fields(s, c), c) == [s[0]] + rest[0] + [c] + JoinWith(rest[1..], c);
      }
    }
  }

  /** Splitting a join of separator-free pieces gives the pieces back. */
  lemma {:induction false} JoinFields(ts: seq<string>, c: char)
    requires |ts| >= 1 && forall k :: 0 <= k < |ts| ==> c !in ts[k]
    ensures Fields(JoinWith(ts, c), c) == ts
    decreases |ts|, |ts[0]|
  {
    if ts[0] == [] {
      if |ts| > 1 {
        var s := JoinWith(ts, c);
        assert s == [c] + JoinWith(ts[1..], c);
        assert s[1..] == JoinWith(ts[1..], c);
        JoinFields(ts[1..], c);
      }
    } else {
      var w := ts[0];
      var ts' := [w[1..]] + ts[1..];
      assert c !in w[1..] by {
        forall k | 0 <= k < |w[1..]| ensures w[1..][k] != c {
          assert w[1..][k] == w[k + 1];
        }
      }
      assert forall k :: 0 <= k < |ts'| ==> c !in ts'[k] by {
        forall k | 0 <= k < |ts'| ensures c !in ts'[k] {
          if k > 0 {
            assert ts'[k] == ts[k];
          }
        }
      }
      JoinFields(ts', c);
      var s := JoinWith(ts, c);
      if |ts| == 1 {
        assert s == w;
        assert s[1..] == JoinWith(ts', c);
      } else {
        assert s == w + [c] + JoinWith(ts[1..], c);
        assert JoinWith(ts', c) == w[1..] + [c] + JoinWith(ts[1..], c);
        assert s[1..] == JoinWith(ts', c);
      }
      assert s[0] == w[0] && w[0] != c;
      assert [w[0]] + w[1..] == w;
      assert ts'[1..] == ts[1..];
      assert [w] + ts[1..] == ts;
    }
  }

  /** Starting with a separator-free field and the separator is the same as
      having that field first and at least one separator; what follows is
      split into the remaining fields. */
  lemma {:induction false} FieldsPrefix(t: string, d: string, c: char)
    requires c !in d
    ensures StartsWith(t, d + [c]) <==> |Fields(t, c)| >= 2 && Fields(t, c)[0] == d
    ensures StartsWith(t, d + [c]) ==> Fields(t, c)[1..] == Fields(t[|d| + 1..], c)
    decreases |d|
  {
    if t != [] {
      var rest := Fields(t[1..], c);
      if d == [] {
        assert (d + [c]) == [c];
      } else if t[0] != c {
        assert c !in d[1..] by {
          forall k | 0 <= k < |d[1..]| ensures d[1..][k] != c {
            assert d[1..][k] == d[k + 1];
          }
        }
        FieldsPrefix(t[1..], d[1..], c);
        assert d == [d[0]] + d[1..];
        assert (d + [c])[1..] == d[1..] + [c];
        if StartsWith(t, d + [c]) {
          assert t[0] == (d + [c])[0];
          assert t[1..][..|d|] == t[..|d| + 1][1..];
          assert StartsWith(t[1..], d[1..] + [c]);
          assert t[1..][|d[1..]| + 1..] == t[|d| + 1..];
        }
        assert Fields(t, c)[0] == d <==> t[0] == d[0] && rest[0] == d[1..];
      } else {
        assert d[0] != c;
      }
    }
  }

  /** The first field of a name: `t.split('/')[0]`. */
  function Domain(t: string): string {
    Fields(t, '/')[0]
  }

  /** Whether a name has at least `n` separators. */
  predicate Slashes(t: string, n: nat) {
    |Fields(t, '/')| > n
  }

  /** The second field of a name that has one: `t.split('/')[1]`. */
  function Family(t: string): string
    requires Slashes(t, 1)
  {
    Fields(t, '/')[1]
  }

  /** The tree `getTangoDict` builds from the upper-cased device names:
      every domain maps every family seen under it (among the names
      starting with `domain/`) to the names starting with
      `domain/family/`. */
  function Group(targets: seq<string>): map<string, map<string, set<string>>> {
    var domains := set t | t in targets :: Domain(t);
    map d | d in domains ::
      var families := set t | t in targets && StartsWith(t, d + "/") && Slashes(t, 1) :: Family(t);
      map f | f in families :: set t | t in targets && StartsWith(t, d + "/" + f + "/")
  }

  /** The device names as `getTangoDict` groups them: the names matching
      the split filters, upper-cased. */
  function Targets(filters: ModelArg, matching: seq<string> -> seq<string>): (r: seq<string>)
    ensures |r| == |matching(SplitModel(filters))|
    ensures forall k :: 0 <= k < |r| ==> r[k] == Upper(matching(SplitModel(filters))[k])
  {
    var names := matching(SplitModel(filters));
    seq(|names|, i requires 0 <= i < |names| => Upper(names[i]))
  }

  /** `getTangoDict(filters)`: nothing for no filters, otherwise the grouped
      matching device names. */
  function GetTangoDict(filters: Option<ModelArg>, matching: seq<string> -> seq<string>)
    : (r: Option<map<string, map<string, set<string>>>>)
    ensures filters.None? <==> r.None?
    ensures filters.Some? ==> r.value.Keys == set t | t in Targets(filters.value, matching) :: Domain(t)
  {
    if filters.None? then None else Some(Group(Targets(filters.value, matching)))
  }

  /** `startswith('%s/' % d)` for a domain `d` is the name having `d` as
      its first field and a second field. */
  lemma UnderDomain(t: string, d: string)
    requires d == Domain(t) || '/' !in d
    ensures StartsWith(t, d + "/") <==> Slashes(t, 1) && Domain(t) == d
  {
    FieldsPrefix(t, d, '/');
  }

  /** `startswith('%s/%s/' % (d, f))` for a domain and family is the name
      having `d` and `f` as its first two fields and a third field. */
  lemma UnderFamily(t: string, d: string, f: string)
    requires '/' !in d && '/' !in f
    ensures StartsWith(t, d + "/" + f + "/")
      <==> Slashes(t, 2) && Domain(t) == d && Family(t) == f
  {
    FieldsPrefix(t, d, '/');
    if StartsWith(t, d + "/") {
      var u := t[|d| + 1..];
      FieldsPrefix(u, f, '/');
      assert Fields(t, '/')[1..] == Fields(u, '/');
      assert StartsWith(t, d + "/" + f + "/") <==> StartsWith(u, f + "/") by {
        assert d + "/" + f + "/" == (d + "/") + (f + "/");
        assert t[..|d| + 1] == d + "/";
      }
    } else {
      assert !StartsWith(t, d + "/" + f + "/") by {
        assert (d + "/" + f + "/")[..|d| + 1] == d + "/";
      }
    }
  }

  /** Domains, families and members of the grouped tree, in terms of the
      names' fields: the domains are the first fields of all names; the
      families under a domain are the second fields of its names that have
      one; the members under a family are exactly the names with those first
      two fields and at least a third, so a name with fewer than two
      separators is listed under no family. */
  lemma {:induction false} GroupFields(targets: seq<string>, d: string, f: string, t: string)
    ensures var g := Group(targets);
      && (d in g <==> exists u :: u in targets && Domain(u) == d)
      && (d in g ==> (f in g[d] <==> exists u :: u in targets && Slashes(u, 1) && Domain(u) == d && Family(u) == f))
      && (d in g && f in g[d] ==> (t in g[d][f] <==> t in targets && Slashes(t, 2) && Domain(t) == d && Family(t) == f))
  {
    var g := Group(targets);
    if d in g {
      assert '/' !in d by {
        var u :| u in targets && Domain(u) == d;
      }
      forall u | u in targets
        ensures (StartsWith(u, d + "/") && Slashes(u, 1)) <==> (Slashes(u, 1) && Domain(u) == d)
      {
        UnderDomain(u, d);
      }
      if f in g[d] {
        assert '/' !in f by {
          var u :| u in targets && StartsWith(u, d + "/") && Slashes(u, 1) && Family(u) == f;
        }
        UnderFamily(t, d, f);
      }
    }
  }

  /** Every matching name with at least two separators is listed under its
      own domain and family, upper-cased. */
  lemma TangoDictLists(filters: ModelArg, matching: seq<string> -> seq<string>, k: nat)
    requires k < |matching(SplitModel(filters))|
    requires Slashes(Upper(matching(SplitModel(filters))[k]), 2)
    ensures var t := Upper(matching(SplitModel(filters))[k]);
      var r := GetTangoDict(Some(filters), matching).value;
      Domain(t) in r && Family(t) in r[Domain(t)] && t in r[Domain(t)][Family(t)]
  {
    var targets := Targets(filters, matching);
    var t := targets[k];
    GroupFields(targets, Domain(t), Family(t), t);
  }
}

=== FILE: wrappers.dfy ===
/**
 Optional values, standing for Python's `None`-or-value results.
 */
module Wrappers {

  datatype Option<+T> = None | Some(value: T) {

    /** Returns the value held in Some, or `default` for None. */
    function GetOr(default: T): T {
      match this
      case Some(v) => v
      case None => default
    }
  }
}
